=== FILE: README.md ===
# gomeow session layer in Dafny

This project models the core of gomeow, a multi-device WhatsApp gateway written
in Go on top of the whatsmeow library. The model covers these parts:

- **Session registry.** `ClientPointer` maps each device to its live client,
  and `KillChannel` gives each device a kill channel with room for one signal.
  The model covers `StartClient`, the teardown goroutine that waits on the
  kill channel, `Shutdown`, `Logout` and the start-up selection of
  `ConnectOnStartup`.
- **Pairing.** `ConnectAndLogin` is a fold over the events of the QR channel.
- **Sending.** The send operations record sent or failed on the message row,
  compose file names and choose the typing delay.
- **Event handling.** The per-session event handler is modelled, together
  with the poll-vote transaction.
- **RPC session service.** The `Connect`, `Disconnect` and `Logout` guards.
- **String helpers.** JID parsing and stripping, and the phone-number helpers
  of the controllers.
- **Middleware.** The middleware list algebra.
- **Loggers.** The two log-level filters: the messaging client's logger and
  the SQL logger.
- **Start-up configuration.**
- **Poll options.** The creation hook of a poll option.
- **Legacy send queue.** The queue of the single-device engine.

Goroutines become sequential steps. The database becomes sequences of rows in
primary-key order. Library calls become oracles: a function parameter, or a
flag that says whether the call fails.

A device's in-memory `Device` object and its database row are identified:
a session's writes go through `Save` at once.

A kill signal can meet three cases:

- The session's teardown is waiting on the channel. It takes the signal and
  tears the session down.
- No one is waiting and the channel has room. The signal is buffered.
- The channel is full and unwatched, or missing (a nil channel). The sender
  blocks forever. This is the explicit outcome `Blocked`.

One Dafny module per source component:

| module | file | source |
|---|---|---|
| `Common` | common.dfy | `sql.NullString`, `sql.NullTime`, `Option` |
| `Hex` | hex.dfy | `fmt.Sprintf("%x", ...)` and its inverse |
| `Strings` | strings.dfy | the `strings.Split`, `Join` and `ToUpper` uses |
| `Models` | models.dfy | cmd/models rows, `Save`, `Update` |
| `Jids` | jid.dfy | pkg/wmeow/whatsmeow.go `ParseJID`, `StripJID` |
| `PhoneNumbers` | phone.dfy | the controllers' `stripPhoneNumber`, `sanitize` |
| `Middleware` | middleware.dfy | pkg/middleware/middleware.go |
| `WaLogger` | walogger.dfy | pkg/wmeow/logger.go |
| `GormLogger` | gormlogger.dfy | pkg/config/dblogger/gormlogger.go |
| `Config` | config.dfy | pkg/config/config.go |
| `PollDetails` | polldetail.dfy | cmd/models/poll_detail.go |
| `Sessions` | registry.dfy | pkg/wmeow/whatsmeow.go registry, client.go `Logout` |
| `Pairing` | pairing.dfy | pkg/wmeow/client.go `ConnectAndLogin` |
| `Outbound` | outbound.dfy | pkg/wmeow/client.go send operations |
| `EventHandling` | dispatcher.dfy | pkg/wmeow/client_events.go |
| `RpcSessions` | rpcsession.dfy | cmd/api/rpc/session.go |
| `LegacyQueue` | queue.dfy | pkg/queues/queue.go, pkg/application/application.go |

The SQL logger's level constants keep their values: Silent = 1, Error = 2,
Warn = 3, Info = 4 and Debug = 5.

### Behaviour worth knowing

- The teardown after a kill signal leaves the device's `IsConnected` column
  as it was. It only clears the QR code, disconnects and removes the client
  (pkg/wmeow/whatsmeow.go:96-121).
- A poll vote whose hash matches no option still commits. The error of the
  option lookup is never checked, so the message records the empty option id
  (pkg/wmeow/client_events.go:145-158).
- cmd/models/message.go lacks many columns that the session layer reads or
  writes, for example `failed`, `failed_at`, `sent_at`, `read_at`,
  `answered_at`, `device_id`, `poll_id`, `poll_detail_id` and `file_name`.
  `Models.Message` is the union of the columns the code writes.

## Model

| member | source | states |
|---|---|---|
| Hex.HexLower | cmd/models/poll_detail.go:45 | the `%x` text of n bytes has 2n characters, all lowercase hex digits |
| Hex.DecodeHexLower | cmd/models/poll_detail.go:45 | reading the `%x` text back gives exactly the printed bytes (round trip) |
| Hex.HexLowerInjective | pkg/wmeow/client_events.go:124-127 | two byte strings with the same `%x` text are equal |
| Strings.BeforeFirst | pkg/wmeow/whatsmeow.go:145 | the first piece of a split is a prefix free of the separator that ends at the separator or at the end |
| Strings.CutAtSeparators | pkg/wmeow/whatsmeow.go:145-147 | the three splits on '@', '.' and ':' leave a prefix with none of them that ends at one of them or at the end |
| Strings.CutAtSeparatorsIsEarliest | pkg/wmeow/whatsmeow.go:145-147 | that prefix is the only one with those two properties |
| Strings.JoinSplit | pkg/wmeow/whatsmeow.go:228 | joining the pieces of `strings.Split` with the separator gives back the string |
| Strings.SplitPiecesFree | pkg/wmeow/whatsmeow.go:228 | no piece of a split holds the separator |
| Strings.ToUpper | pkg/config/config.go:104 | upper-casing keeps the length and maps each character through the ASCII upper-case map |
| Strings.ToUpperIdempotent | pkg/config/config.go:104 | upper-casing twice is upper-casing once |
| Jids.ParseJid | pkg/wmeow/whatsmeow.go:153-200 | "" is the empty user on the default server with ok=false. A phone part with a non-digit gives the library's parse of "" with ok=false. Without '@', ok holds iff the phone part is all digits, and the user is the input minus one '+'. With '@' and an all-digit phone part, the result is the library's JID, ok iff the library succeeded with a non-empty user |
| Jids.ParseJidLonePlus | pkg/wmeow/whatsmeow.go:157-184 | "+" is accepted with an empty user, since the digit check on an empty phone part passes |
| Jids.ParseJidStripsOnePlus | pkg/wmeow/whatsmeow.go:157-181 | only one '+' is stripped: "++..." always fails the digit check |
| Jids.ParseJidKeepsDeviceSuffix | pkg/wmeow/whatsmeow.go:162-184 | "+" then digits then a '.' or ':' suffix without '@' parses to digits plus suffix on the default server |
| Jids.StripJid | pkg/wmeow/whatsmeow.go:138-150 | for non-empty text: the result has no '@', '.' or ':', is a prefix of the '+'-stripped text, and ends where a separator or the text ends |
| Jids.StripJidIsPhonePart | pkg/wmeow/whatsmeow.go:138-167 | `StripJID` returns exactly the phone part that `ParseJID` checks for digits |
| PhoneNumbers.MessageStripPhoneNumber | cmd/api/controllers/message/helper.go:9-16 | an empty number panics on `phoneNumber[0:1]`. Otherwise the result is a suffix, one shorter iff the input starts with '+' or '0', and otherwise the input itself |
| PhoneNumbers.FileStripPhoneNumber | cmd/api/controllers/file/helper.go:15-22 | the same for the file package's copy, panic included |
| PhoneNumbers.PollMessageStripPhoneNumber | cmd/api/controllers/pollmessage/helper.go:18-25 | the same for the pollmessage package's copy, panic included |
| PhoneNumbers.StripCopiesAgree | cmd/api/controllers/pollmessage/helper.go:18-25 | the three copies agree on every input, the empty one included |
| PhoneNumbers.StripRemovesOnlyOne | cmd/api/controllers/message/helper.go:10-13 | "+0..." keeps its zero: only one character is removed |
| PhoneNumbers.StripNotIdempotent | cmd/api/controllers/file/helper.go:16-19 | "00123" becomes "0123", then "123": stripping is not idempotent |
| PhoneNumbers.StripThenValidate | cmd/api/controllers/message/sendtext.go:28-38 | the field is stripped before validation: it panics iff empty, and is accepted iff the stripped number passes `required,numeric,min=5,max=20`, as that stripped number |
| PhoneNumbers.MissingPhonePanics | cmd/api/controllers/pollmessage/sendpoll.go:41-50 | a request without a destination panics, although the validator would have rejected "" |
| PhoneNumbers.StripThenValidateFixed | cmd/api/controllers/message/sendtext.go:28-38 | with an empty-number guard the step never panics, rejects "" and accepts exactly the guarded strip that passes the validator tag |
| PhoneNumbers.GuardedStripPhoneNumber | cmd/api/controllers/message/helper.go:9-16 | "" stays "", every other number is stripped as `stripPhoneNumber` does |
| PhoneNumbers.PhoneFixAgreesWithoutPanic | cmd/api/controllers/file/sendfile.go:39-54 | wherever the original step does not panic, the corrected step gives the same outcome |
| PhoneNumbers.Sanitize | cmd/api/controllers/contact/helper.go:11-21 | one leading '0' is dropped. The result has no '@', '.' or ':' and is the longest prefix before the earliest of them. An input with no separator and no leading '0' comes back unchanged |
| PhoneNumbers.SanitizeKeepsPlus | cmd/api/controllers/contact/helper.go:12-14 | a leading '+' is not stripped |
| Middleware.Chain | pkg/middleware/middleware.go:82-90 | the chained handle's wrappers are the middlewares in list order, outermost first, around the original handle, and its endpoint is the original one |
| Middleware.Unique | pkg/middleware/middleware.go:112-134 | the output has no duplicates and the same members as the input, and is never longer |
| Middleware.UniqueKeepsFirstOccurrenceOrder | pkg/middleware/middleware.go:117-131 | the survivors appear in the order of their first occurrence in the input |
| Middleware.UniqueScan | pkg/middleware/middleware.go:112-134 | the nested scan loop computes `Unique` |
| Middleware.UniqueOfNoDup | pkg/middleware/middleware.go:112-134 | a list without duplicates is left as it is |
| Middleware.UniqueIdempotent | pkg/middleware/middleware.go:112-134 | deduplicating twice is deduplicating once |
| Middleware.Get | pkg/middleware/middleware.go:42-44 | the list stored under the name, or the empty list (Go's nil slice) for a missing name |
| Middleware.Set | pkg/middleware/middleware.go:23-27 | `Get` then returns the new list; every other name reads as before |
| Middleware.Append | pkg/middleware/middleware.go:63-67 | the target becomes its old list followed by the given middlewares; other names are unchanged |
| Middleware.Prepend | pkg/middleware/middleware.go:69-78 | the target becomes the given middlewares followed by its old list; other names are unchanged |
| Middleware.AppendFromCurrent | pkg/middleware/middleware.go:46-50 | `to` becomes to ++ from; `from` and every other name are unchanged |
| Middleware.PrependFromCurrent | pkg/middleware/middleware.go:52-61 | `to` becomes from ++ to; `from` and every other name are unchanged |
| Middleware.Collect | pkg/middleware/middleware.go:30-34 | a middleware is collected iff it is in the list of one of the names |
| Middleware.CollectSingle | pkg/middleware/middleware.go:32-34 | one name collects exactly its own list |
| Middleware.CollectAppend | pkg/middleware/middleware.go:30-34 | the lists come out in argument order, each as often as its name is given: collecting a ++ b is collecting a, then b |
| Middleware.ListChain | pkg/middleware/middleware.go:29-40 | the layers, outermost first, are the first occurrences of the named lists concatenated in argument order, around the original handle and endpoint |
| Middleware.ListChainIgnoresUnknownName | pkg/middleware/middleware.go:32-34 | a name with no list adds nothing to the chain, at any position among the names |
| Middleware.ListChainWrapsEachOnce | pkg/middleware/middleware.go:29-40 | every middleware of a named list wraps the handle, and none wraps it twice |
| Middleware.InitMiddlewareList | pkg/middleware/middleware.go:92-109 | "default" is [LogRequest], "auth" is [Auth, LogRequest], and no other name is set |
| Middleware.AuthDefaultChain | pkg/middleware/middleware.go:101-106 | chaining "auth" then "default" authenticates outermost and logs once |
| WaLogger.LevelValue | pkg/wmeow/logger.go:45-51 | "" reads as -1, each severity name as its rank 0..3, and a missing name as 0 |
| WaLogger.InitZapLogger | pkg/wmeow/logger.go:53-58 | the minimum is the table value of the upper-cased name: -1 for an empty name, the rank of DEBUG, INFO, WARN or ERROR, and 0 for an unknown name |
| WaLogger.EmptyLevelEmitsEverything | pkg/wmeow/logger.go:45-58 | a logger built with an empty level name forwards every severity, DEBUG included |
| WaLogger.InitZapLoggerCaseInsensitive | pkg/wmeow/logger.go:56 | any letter case of the level name gives the same logger |
| WaLogger.Emits | pkg/wmeow/logger.go:17-40 | a message is forwarded iff its severity's rank is at least the minimum |
| WaLogger.EmitsMonotone | pkg/wmeow/logger.go:17-40 | if a severity is forwarded, every higher one is too |
| WaLogger.ErrorAlwaysEmitted | pkg/wmeow/logger.go:17-22 | errors pass every logger built by `InitZapLogger`, whatever the level name |
| WaLogger.Sub | pkg/wmeow/logger.go:41-43 | the child keeps the minimum and forwards the same severities; its module is parent + "/" + child |
| GormLogger.LogLevelToGormLevel | pkg/config/dblogger/gormlogger.go:104-118 | table names map through the table, anything else maps to Silent, and the result lies in Silent..Debug |
| GormLogger.LevelNameRoundTrip | pkg/config/dblogger/gormlogger.go:112-118 | each non-silent level is reached from its own upper-case name |
| GormLogger.LowerCaseNameIsSilent | pkg/config/dblogger/gormlogger.go:104-110 | the lookup is exact: "debug" maps to Silent |
| GormLogger.LogMode | pkg/config/dblogger/gormlogger.go:38-43 | the copy differs from the receiver only in its level |
| GormLogger.LogModeOverrides | pkg/config/dblogger/gormlogger.go:38-43 | setting the level twice keeps the last one; setting the current level changes nothing |
| GormLogger.Emits | pkg/config/dblogger/gormlogger.go:46-64 | `Info`, `Warn` and `Error` write iff the level is at least theirs |
| GormLogger.EmitsMonotone | pkg/config/dblogger/gormlogger.go:46-70 | raising the level never silences a kind; Silent silences every kind |
| GormLogger.Trace | pkg/config/dblogger/gormlogger.go:67-94 | Silent writes nothing. Above Silent, the cases are tried in order: an error line iff there is an error, level >= Error, and it is not an ignored not-found; otherwise a slow line iff elapsed > threshold != 0 and level >= Warn; otherwise a debug line iff the level is Debug; otherwise nothing. Every line reports the SQL and a row count of -1 as 0 |
| GormLogger.TraceErrorWins | pkg/config/dblogger/gormlogger.go:73-80 | an error other than not-found is reported ahead of the slow line |
| GormLogger.TraceIgnoresNotFound | pkg/config/dblogger/gormlogger.go:74 | with not-found ignored, a missing row traces like success |
| GormLogger.TraceDebugAlwaysWrites | pkg/config/dblogger/gormlogger.go:73-93 | at Debug every query writes exactly one line |
| GormLogger.TraceZeroThresholdNeverSlow | pkg/config/dblogger/gormlogger.go:80 | a zero threshold disables the slow line |
| GormLogger.ParamsFilter | pkg/config/dblogger/gormlogger.go:97-102 | the SQL is unchanged; the parameters are dropped iff queries are parameterized |
| Config.Getenv | pkg/config/config.go:71-77 | a present key wins, even when its value is empty; otherwise the fallback applies |
| Config.DefaultLogLevel | pkg/config/config.go:147-158 | "debug" exactly for local, debug and testing, otherwise "info" |
| Config.Get | pkg/config/config.go:36-69 | each field is its variable or default. An unset or empty LOG_LEVEL is written back as the environment's default level, and no other variable changes |
| Config.GetIsIdempotent | pkg/config/config.go:58-63 | reading the written-back environment again gives the same configuration and needs no further write |
| Config.GetEmptyEnvironment | pkg/config/config.go:36-63 | with nothing set, the production defaults apply and LOG_LEVEL becomes "info" |
| Config.GetDBConnStr | pkg/config/config.go:83-85 | "file:" + database name + "?_foreign_keys=on", and the name can be read back |
| Config.GetMySQLConnectionString | pkg/config/config.go:87-96 | starts with user:password@tcp(, ends with )/name plus the fixed options, and holds host:port in between |
| Config.MySQLUserRecoverable | pkg/config/config.go:87-96 | a user name without ':' is what precedes the first ':' |
| Config.GetAPIPort | pkg/config/config.go:98-100 | ":" followed by the port |
| Config.GetLogLevel | pkg/config/config.go:102-105 | each character of the configured level, upper-cased, in place; the result is already upper case |
| Config.WhatsmeowDBLogLevel | pkg/config/config.go:107-112 | "ERROR" exactly in production, otherwise "INFO" |
| Config.MessageStoreLogConfig | pkg/config/config.go:127-135 | 2 s slow threshold, not-found ignored, parameters logged, and the level mapped from `GetLogLevel` |
| Config.MessageStoreSilentIffUnknownLevel | pkg/config/config.go:131 | the SQL logger is silent iff the upper-cased level is not DEBUG, INFO, WARN or ERROR |
| Config.MessageStoreLevelOfName | pkg/config/config.go:131 | the SQL level of a configuration is the table value of its upper-cased level |
| Config.MessageStoreDebugWhenLocal | pkg/config/config.go:58-63 | with LOG_LEVEL unset and APP_ENV "local", the SQL logger logs at Debug |
| Config.MessageStoreInfoByDefault | pkg/config/config.go:58-63 | with neither variable set, the SQL logger logs at Info |
| PollDetails.OptionHash | cmd/models/poll_detail.go:43-46 | 64 lowercase hex characters that decode to the option's SHA-256 |
| PollDetails.BeforeCreate | cmd/models/poll_detail.go:38-49 | a set id and hash are kept. An empty id becomes the fresh ULID; an empty hash becomes the hex SHA-256 of the option. Option, poll and timestamps are unchanged |
| PollDetails.BeforeCreateIdempotent | cmd/models/poll_detail.go:38-49 | running the hook again changes nothing, whatever fresh id it gets |
| PollDetails.OptionHashInjective | cmd/models/poll_detail.go:44-45 | equal stored hashes mean equal SHA-256 digests |
| PollDetails.ToResponseDTO | cmd/models/poll_detail.go:51-59 | id, poll id, option and both timestamps are copied |
| PollDetails.ToResponseDTOOmitsHash | cmd/models/poll_detail.go:51-59 | two rows give the same response iff they differ at most in the hash |
| Models.FindDeviceByCode | cmd/api/rpc/session.go:27-29 | the first row with the code, or none when no row has it |
| Models.SaveDevice | pkg/wmeow/client.go:48 | every row with the device's id becomes the device; other rows stay |
| Models.FindMessage | pkg/wmeow/client_events.go:136-139 | the first message row with the id, or none when no row has it |
| Models.UpdateWhere | pkg/wmeow/client.go:161-164 | the update lands on exactly the rows with the message id |
| Models.ApplyUpdateIdempotent | pkg/wmeow/client_events.go:80-97 | each column update applied twice equals once |
| Models.UpdateWhereIdempotent | pkg/wmeow/client_events.go:80-97 | an update by message id applied twice equals once |
| Sessions.IsConnected | pkg/wmeow/whatsmeow.go:127-136 | true iff a client exists and reports a live connection |
| Sessions.StartClient | pkg/wmeow/whatsmeow.go:27-124 | a connected entry means no change. A failed store lookup means an error and no change. Otherwise the entry becomes a fresh client, an empty kill channel and a waiting teardown; other devices are unchanged |
| Sessions.StartClientKeepsValid | pkg/wmeow/whatsmeow.go:69-97 | starting keeps every client, kill channel and waiting teardown consistent |
| Sessions.StartClientOverwritesStale | pkg/wmeow/whatsmeow.go:69-72 | an unconnected entry is overwritten, with a fresh, empty kill channel |
| Sessions.ClearQrCodes | pkg/wmeow/whatsmeow.go:103-108 | exactly the rows of the given devices get a cleared QR code |
| Sessions.Teardown | pkg/wmeow/whatsmeow.go:96-121 | the QR code is cleared, the client and the waiting teardown are gone, the kill key stays, and other devices are unchanged |
| Sessions.Signal | pkg/wmeow/whatsmeow.go:96-114 | a send blocks iff the channel is missing, or full with no one waiting. A waiting teardown runs. Otherwise the signal is buffered |
| Sessions.SignalKeepsValid | pkg/wmeow/whatsmeow.go:96-114 | a delivered signal keeps the registry consistent |
| Sessions.SignalTwiceThenBlocks | pkg/wmeow/whatsmeow.go:72-114 | a registered session is torn down by one signal; a second is buffered and a third blocks |
| Sessions.ShutdownStep | pkg/wmeow/whatsmeow.go:244-245 | the next signal blocks iff its channel was stuck, and otherwise extends the progress |
| Sessions.ShutdownFinish | pkg/wmeow/whatsmeow.go:242-247 | after every key is signalled, nothing was stuck and every session is gone |
| Sessions.Shutdown | pkg/wmeow/whatsmeow.go:242-247 | blocks iff some kill channel is full and unwatched. Otherwise: every client and teardown is gone, kill keys remain, idle channels gain one signal, and exactly the watched devices' QR codes are cleared |
| Sessions.LoggedOutDevice | pkg/wmeow/client.go:45-47 | not connected, with JID and webhook cleared to invalid ""; every other column unchanged |
| Sessions.Logout | pkg/wmeow/client.go:44-53 | blocks iff the device has no kill channel or a full one nobody waits on. Otherwise every row with the device's id becomes the logged-out device, with its QR code cleared too when a teardown was waiting, and other rows stay. A waiting teardown removes the client; otherwise one signal is buffered. Other devices' entries are unchanged |
| Sessions.LogoutOfRegisteredSession | pkg/wmeow/client.go:44-53 | for a registered session, the row is logged out with its QR code cleared, and the session is gone but its kill key stays |
| Sessions.LogoutKeepsCodes | pkg/wmeow/client.go:44-53 | a logout changes no row's code |
| Sessions.StartupLaunches | pkg/wmeow/whatsmeow.go:205-236 | only devices marked connected are launched, each with its JID text and its comma-split event list |
| Sessions.StartupLaunchesComplete | pkg/wmeow/whatsmeow.go:207-235 | every device marked connected is launched |
| Sessions.StartupSubscriptionsRejoin | pkg/wmeow/whatsmeow.go:228 | the subscriptions join back to the stored event list |
| Sessions.StartAll | pkg/wmeow/whatsmeow.go:225-236 | starting clients never changes a device row |
| Sessions.StartAllKeepsRegistered | pkg/wmeow/whatsmeow.go:225-236 | starting never unregisters another device |
| Sessions.StartAllRegistersEach | pkg/wmeow/whatsmeow.go:225-236 | with working lookups, every launched device ends up registered |
| Sessions.ConnectOnStartupRegistersConnected | pkg/wmeow/whatsmeow.go:205-236 | with working lookups, every device marked connected gets a session |
| Pairing.SetQrCode | pkg/wmeow/client.go:90-95 | exactly the device's rows get the new QR code |
| Pairing.SetClearedIsTeardownClear | pkg/wmeow/client.go:101-107 | the timeout's cleared code is the teardown's cleared code |
| Pairing.MarkConnected | pkg/wmeow/client.go:61 | only the device's client, if any, becomes connected |
| Pairing.QrFold | pkg/wmeow/client.go:87-136 | never panics. It returns an error iff the flag is set, the only error is a failed save, and other devices' rows are unchanged |
| Pairing.ConnectAndLogin | pkg/wmeow/client.go:58-137 | with credentials, it panics iff `Connect` fails, and otherwise returns (nil, true) with the client connected. A QR channel error returns (err, true) with no change. With a QR channel, it panics iff `Connect` fails, and otherwise is the QR fold from the connected state. A clean return has flag true iff credentials existed |
| Pairing.StoredCredentialsSkipQr | pkg/wmeow/client.go:59-68 | with credentials, no QR event is read, no QR code is written, and (nil, true) is returned |
| Pairing.QrFoldAppend | pkg/wmeow/client.go:87-132 | folding a + b is folding a, then b from where a stopped, unless a already returned |
| Pairing.SaveFailureStops | pkg/wmeow/client.go:87-128 | a failed save returns its error at once, and later events are never read |
| Pairing.OtherEventInert | pkg/wmeow/client.go:129-131 | events other than code, timeout and success change nothing |
| Pairing.LastCodeWins | pkg/wmeow/client.go:88-100 | after a run of codes, the stored QR code is the last one, marked valid, and the registry is unchanged |
| Pairing.TimeoutEndsSession | pkg/wmeow/client.go:101-117 | a timeout clears the code, removes the client and, through the signal, the teardown; the kill key stays |
| Pairing.SuccessClearsCodeOnly | pkg/wmeow/client.go:118-128 | a success clears the code and leaves the registry alone |
| Pairing.RemovedClientStaysRemoved | pkg/wmeow/client.go:116-128 | once removed, a client is not re-registered by later events |
| Pairing.ExhaustedStreamReturnsFalse | pkg/wmeow/client.go:87-136 | a stream that runs out with no failed save and no timeout returns (nil, false) |
| Outbound.RecordSendResult | pkg/wmeow/client.go:159-171 | rows with other ids are unchanged. A provider error sets failed and failed_at only; success sets sent and sent_at only, plus the file name for files |
| Outbound.SentXorFailed | pkg/wmeow/client.go:159-171 | a fresh row ends sent or failed, never both, and failed iff the provider erred |
| Outbound.SendTextMessage | pkg/wmeow/client.go:140-175 | only send columns change. A row is sent iff it was already, or it is this message and the provider succeeded; failed likewise on error. The message's rows get sent_at = now on success or failed_at = now on error, and the other timestamp is untouched |
| Outbound.SendPollMessage | pkg/wmeow/client.go:178-222 | the same outcome recording for polls, timestamps included |
| Outbound.TextAndPollRecordAlike | pkg/wmeow/client.go:178-222 | text and poll sends record their outcome identically |
| Outbound.SendImageMessage | pkg/wmeow/client.go:225-292 | a decode error or an upload error changes nothing. A payload that is sent has its outcome recorded, and an error is returned iff the provider erred. Without a reply context the image is always sent |
| Outbound.ImageReplyPanics | pkg/wmeow/client.go:260-266 | every image reply that decodes and uploads panics |
| Outbound.QuoteOf | pkg/wmeow/client.go:260-266 | a quote exists iff the reply names a stanza, and it carries that stanza and participant |
| Outbound.SendImageMessageFixed | pkg/wmeow/client.go:225-292 | never panics. The reply context goes on the image, and the outcome is recorded as above |
| Outbound.ImageFixAgreesWithoutReply | pkg/wmeow/client.go:225-292 | wherever the written code does not panic, the fix behaves the same |
| Outbound.ComposeFileName | pkg/wmeow/client.go:322 | the requested name followed by the last extension |
| Outbound.SendFileMessage | pkg/wmeow/client.go:295-370 | decode, upload and extension-lookup errors change nothing. A sent document carries the composed name, its outcome is recorded with that name, and an error is returned iff the provider erred |
| Outbound.FileWithoutExtensionPanics | pkg/wmeow/client.go:317-322 | an empty extension list panics |
| Outbound.FileReplyPanics | pkg/wmeow/client.go:337-343 | every file reply that decodes, uploads and has a non-empty extension list panics, whatever the participant |
| Outbound.SendFileMessageFixed | pkg/wmeow/client.go:295-370 | never panics. An empty extension list is the "no extension detected" error, and a reply context goes on the document |
| Outbound.FileFixAgreesWhereDefined | pkg/wmeow/client.go:295-370 | wherever the written code does not panic, the fix behaves the same |
| Outbound.TypingDelay | pkg/wmeow/client.go:380 | the pause is 1 to 9 seconds, one more than the draw |
| Outbound.TypingDelayCoversRange | pkg/wmeow/client.go:380 | every whole number of seconds from 1 to 9 can occur |
| EventHandling.UpdateEach | pkg/wmeow/client_events.go:80-87 | every row whose id is listed gets the update once; other rows are unchanged |
| EventHandling.UpdateEachIdempotent | pkg/wmeow/client_events.go:80-97 | applying the per-id updates twice equals once |
| EventHandling.ReadReceiptWrites | pkg/wmeow/client_events.go:75-98 | the two receipt goroutines together write what one of them writes |
| EventHandling.VoteHash | pkg/wmeow/client_events.go:124-127 | "" for no selection; otherwise lowercase hex that decodes to the last selected hash |
| EventHandling.VoteHashIsLastSelection | pkg/wmeow/client_events.go:125-127 | only the last selection counts |
| EventHandling.VoteMatchesCreatedDetail | pkg/wmeow/client_events.go:124-127 | a vote for an option's SHA-256 matches the hash the creation hook stored for it |
| EventHandling.PreloadedPollId | pkg/wmeow/client_events.go:136-139 | the message's poll id when that poll exists, otherwise "" |
| EventHandling.FindVotedDetail | pkg/wmeow/client_events.go:146-149 | the first detail of the poll with the vote's hash, or none when there is none |
| EventHandling.VotedDetailId | pkg/wmeow/client_events.go:145-158 | the id of a matching detail when one exists, otherwise "" |
| EventHandling.HistoryOf | pkg/wmeow/client_events.go:167-174 | the history row copies poll, device, detail, message id, destination and answer time from the answered message |
| EventHandling.PollVote | pkg/wmeow/client_events.go:121-184 | an unknown message or either failed save leaves everything unchanged. A commit sets the message's answer time and detail, appends exactly one history row, and leaves devices, polls and details alone |
| EventHandling.CommittedVoteRecordsMatchingDetail | pkg/wmeow/client_events.go:145-158 | when a detail of the poll carries the vote's hash, the recorded detail is such a detail |
| EventHandling.LaterVoteOverwrites | pkg/wmeow/client_events.go:153-182 | a second vote overwrites the answer time and adds a second history row |
| EventHandling.LoggedOutEffect | pkg/wmeow/client_events.go:102-103 | the handler blocks iff `Logout` blocks, and otherwise has its effect |
| EventHandling.IncomingMessageEffect | pkg/wmeow/client_events.go:61-73 | only a decryptable poll update writes, and it writes the vote |
| EventHandling.HandleEvent | pkg/wmeow/client_events.go:16-119 | an incoming message has exactly the vote's effect, if any |
| EventHandling.InertEventsChangeNothing | pkg/wmeow/client_events.go:99-116 | sync, stream, presence, history, app-state, call and unknown events change nothing |
| EventHandling.ConnectedWithoutPushNameInert | pkg/wmeow/client_events.go:19-23 | without a push name, a connection changes nothing |
| EventHandling.UndecryptableVoteWritesNothing | pkg/wmeow/client_events.go:62-68 | a poll update that fails to decrypt writes nothing |
| EventHandling.ConnectedMarksDevice | pkg/wmeow/client_events.go:19-36 | with a push name, the device's rows become connected and nothing else changes, whatever the presence send does |
| EventHandling.ReadReceiptMarksOnce | pkg/wmeow/client_events.go:75-98 | a read receipt applies the read update once per listed id |
| EventHandling.LoggedOutIsLogout | pkg/wmeow/client_events.go:102-103 | a logged-out event has exactly the effects of `Logout` |
| EventHandling.ReadReceiptMarksListed | pkg/wmeow/client_events.go:75-98 | listed messages become read at the receipt's time, and unlisted ones are unchanged |
| EventHandling.PairSuccessTouchesOwnRow | pkg/wmeow/client_events.go:47-58 | the device's rows get the JID as valid text and become connected, keeping their QR code; other rows and tables are unchanged |
| RpcSessions.LookupCode | cmd/api/rpc/session.go:27-34 | a found row has the code and the code is non-empty; not found means an empty code or no row with it |
| RpcSessions.Connect | cmd/api/rpc/session.go:24-64 | an unknown code means not found. A registered device means already connected. A failed save is an error. Otherwise Events becomes "All", the client start is launched, and the answer is CONNECTED |
| RpcSessions.ConnectThenConnectRefused | cmd/api/rpc/session.go:36-57 | after the launched start registers the session, a second `Connect` is refused |
| RpcSessions.Disconnect | cmd/api/rpc/session.go:66-91 | an unknown code means not found. No client means already disconnected. Otherwise exactly one kill signal is sent and the answer is DISCONNECTED |
| RpcSessions.DisconnectTearsDown | cmd/api/rpc/session.go:78-84 | a registered session is torn down, and a second call is refused |
| RpcSessions.Logout | cmd/api/rpc/session.go:93-135 | empty JID means not logged in, and a missing client is a nil dereference. Logged in: a client error is returned, otherwise local `Logout` runs. Connected only: one kill signal. Not connected is an error |
| RpcSessions.LogoutClearsCredentials | cmd/api/rpc/session.go:110-119 | a logged-in session's logout clears the row's credentials and QR code, and the same call is then refused as not logged in |
| LegacyQueue.InitQueue | pkg/queues/queue.go:15-19 | a new queue is empty |
| LegacyQueue.Add | pkg/queues/queue.go:11-13 | the message goes at the back; earlier elements keep their order |
| LegacyQueue.SendMeow | pkg/application/application.go:106-145 | an empty queue changes nothing. A failure moves the front to the back and marks nothing. A success removes the front and sets the sent flag of its message |
| LegacyQueue.Run | pkg/application/application.go:94-98 | after any run of ticks, at most one message was delivered per tick, and the messages still queued plus those delivered are exactly those queued at the start |
| LegacyQueue.FailedSendRotates | pkg/application/application.go:119-123 | a failed send keeps the same messages queued |
| LegacyQueue.RunDeliversInOrder | pkg/application/application.go:106-128 | without failures, messages are delivered first in, first out |
| LegacyQueue.AddAllAppends | pkg/application/application.go:74-83 | adding one by one appends the batch in order |
| LegacyQueue.ToPending | pkg/application/application.go:76-80 | destination becomes To, and the message id and body are kept |
| LegacyQueue.LoadQueue | pkg/application/application.go:66-84 | the selection is never longer than the table |
| LegacyQueue.LoadQueueSound | pkg/application/application.go:69-83 | only unsent rows of the account are loaded |
| LegacyQueue.LoadQueueComplete | pkg/application/application.go:69-83 | every unsent row of the account is loaded |
| LegacyQueue.LoadQueueKeepsOrder | pkg/application/application.go:69-83 | loading keeps query order |
| LegacyQueue.AddReadEventHandler | pkg/application/application.go:49-64 | a read receipt sets the read flag of exactly the listed messages; every other event is ignored |
| LegacyQueue.ReadFlagsAgree | pkg/application/application.go:55-60 | the application handler and the session handler set the same read flags for a receipt |

## Left out

- Database reads never fail in the model. Two branches on a failed read
  are therefore not modelled; the next two lines name them.
- Sessions.StartupLaunches: `ConnectOnStartup` panics when its `Find`
  errs (pkg/wmeow/whatsmeow.go:211-215). The model always selects.
- EventHandling.PollVote: the vote returns without writing when its
  `First` errs for a reason other than a missing row
  (pkg/wmeow/client_events.go:140-143). Only the missing row is modelled,
  so an existing message always commits unless a save fails.
- Middleware.Append: lists are values, so the shared backing arrays of Go
  slices are not modelled. In Go, `append` may write into spare capacity
  that another name's slice shares, so "other names are unchanged" can fail
  after `Set(b, Get(a))`. The program itself only installs fresh literals
  (pkg/middleware/middleware.go:101-106). The same holds for
  Middleware.AppendFromCurrent.
- LegacyQueue.Run: `RunQueue` starts one `SendMeow` goroutine per tick. The
  model runs them one after another, in tick order.
- Goroutines and synchronisation are sequential steps. This covers the
  async client start, the teardown goroutines, the two read-receipt
  goroutines and the queue ticker, plus the exit wait group and context
  cancellation.
- The two read-receipt goroutines write in one order. Their interleaving is
  not modelled; both write the same idempotent update.
- The databases are sequences of rows. The ORM's automatic `created_at` and
  `updated_at` columns are not modelled, and neither are association
  upserts.
- Saves whose errors are only logged are modelled as succeeding. Only saves
  the code branches on take a failure flag.
- The whatsmeow library is an oracle: `Connect`, `GetQRChannel`,
  `SendMessage`, `Upload`, `DecryptPollVote`, `SendPresence`,
  `types.ParseJID`, `GetDevice`, `IsConnected`, `IsLoggedIn` and the client's
  `Logout`.
- The data-URL decoder and the MIME extension table are oracles.
- The legacy engine's `Meow.SendMessage` is an oracle.
- `GetDevice` returning no device for an unknown JID is not modelled; a
  lookup either fails or succeeds.
- HTTP controllers, routers, gRPC plumbing, the validator and the JSON
  formatting are not part of this model. The session controllers repeat the
  RPC guards. The one controller step modelled is the phone field's
  strip-then-validate order in the four send controllers.
- PhoneNumbers.StripThenValidate: the validator's `numeric` check is a
  parameter, since the validator library is not part of this model. The
  `required`, `min=5` and `max=20` parts are stated, with lengths counted in
  characters.
- ULID generation and SHA-256 stay abstract: a fresh id is an input, and the
  hash is any function to 32 bytes.
- Command-line flags, logger file setup and the zap global level are not
  modelled.
- Time is not modelled: clocks, sleeps and the random draw are inputs, and
  float formatting in `Trace` is left out.
- Strings.ToUpper: upper-cases ASCII letters only, while Go's
  `strings.ToUpper` maps all of Unicode. This is enough for ASCII level
  names. Non-ASCII input differs: Go maps "ınfo" (dotless i) to "INFO", so
  the program logs at Info, while the model treats it as an unknown name
  (Silent for the SQL logger, minimum 0 for the client logger).
- Config.Get runs once per process: a second call would define the
  "appenv" flag again on the default flag set, which panics. Command-line
  flag parsing is not modelled, so each field is its environment value.
- Sessions.StartClient: an overwritten entry's old teardown goroutine keeps
  waiting on the old channel. The model keeps one teardown per device, so it
  does not show that leftover goroutine.
- Sessions.StartupLaunches: `ConnectOnStartup` passes `&device` of the loop
  variable to each goroutine. Before Go 1.22 every goroutine could see the
  last device. The module's Go version is not part of this model, so only
  the selection is modelled.
- RpcSessions.ConnectThenConnectRefused, RpcSessions.LogoutClearsCredentials
  and Sessions.LogoutKeepsCodes: these assume that device ids are unique, as
  the primary key guarantees. `Find` into a single struct is modelled as the
  first row with the code, which is the only one because codes are unique.
- LegacyQueue.LoadQueue: its own contract only bounds the length. Soundness,
  completeness and order are stated in the three lemmas after it.
- EventHandling.HandleEvent: its own contract covers incoming messages. The
  other cases are stated per event in the lemmas that follow it.
- cmd/models/message.go is out of date with the columns the code writes.
  `Models.Message` follows the code.

## Findings

| source | as written | input that shows it | evidently intended | confidence | as-written member | corrected member |
|---|---|---|---|---|---|---|
| pkg/wmeow/client.go:260-266 | the reply context is assigned through `msg.ExtendedTextMessage`, which is nil for an image message | an image request whose `ContextInfo.StanzaId` is set and that decodes and uploads | attach the context to the `ImageMessage` | not executed; high | Outbound.ImageReplyPanics | Outbound.SendImageMessageFixed |
| pkg/wmeow/client.go:337-343 | the same nil `ExtendedTextMessage` assignment for a document | a file request with `ContextInfo.StanzaId` set and a known extension | attach the context to the `DocumentMessage` | not executed; high | Outbound.FileReplyPanics | Outbound.SendFileMessageFixed |
| pkg/wmeow/client.go:317-322 | `extension[len(extension)-1]` is read when the extension lookup returns no error and an empty list | a detected content type with no registered extension | report "no extension detected" | not executed; medium | Outbound.FileWithoutExtensionPanics | Outbound.SendFileMessageFixed |
| cmd/api/controllers/message/sendtext.go:28-38 | `stripPhoneNumber` runs before the validator, and it slices `phoneNumber[0:1]`; the same order is at cmd/api/controllers/image/sendimage.go:40-49, cmd/api/controllers/file/sendfile.go:40-49 and cmd/api/controllers/pollmessage/sendpoll.go:42-45 | a text, image, file or poll request whose JSON body leaves the phone or destination out, or sets it to "" | reject the empty number with 422 through the `required` tag | not executed; high | PhoneNumbers.MissingPhonePanics | PhoneNumbers.StripThenValidateFixed |

=== FILE: common.dfy ===
/** Small value types shared by every module: optional values and the
    nullable column types of Go's database/sql package. */
module Common {

  datatype Option<+T> = None | Some(value: T)

  /** sql.NullString: the stored text plus its validity flag. */
  datatype NullString = NullString(str: string, valid: bool)

  /** sql.NullTime; instants are abstract integers (wall-clock values are inputs). */
  datatype NullTime = NullTime(time: int, valid: bool)

  /** The value `sql.NullString{String: ""}` the source writes to clear a column. */
  const ClearedString := NullString("", false)

  /** The zero `sql.NullTime`. */
  const NoTime := NullTime(0, false)
}

=== FILE: config.dfy ===
/** Start-up configuration (pkg/config/config.go): environment lookup with
    defaults, the log-level defaulting that writes back into the environment,
    the derived connection strings and the two database loggers' levels. */
module Config {
  import opened Strings
  import GormLogger

  /** The process environment. */
  type Env = map<string, string>

  /** `getenv`: a variable that is set, even to "", wins over the fallback. */
  function Getenv(env: Env, key: string, fallback: string): (v: string)
    ensures key in env ==> v == env[key]
    ensures key !in env ==> v == fallback
  {
    if key in env then env[key] else fallback
  }

  const Production := "production"

  /** `getDefaultLogLevel`. */
  function DefaultLogLevel(environment: string): (l: string)
    ensures l == "debug" <==> environment in {"local", "debug", "testing"}
    ensures l == "debug" || l == "info"
  {
    match environment
    case "local" => "debug"
    case "debug" => "debug"
    case "testing" => "debug"
    case _ => "info"
  }

  datatype Config = Config(
    appEnv: string,
    dbName: string,
    msgstoreUser: string,
    msgstorePswd: string,
    msgstorePort: string,
    msgstoreHost: string,
    msgstoreName: string,
    apiPort: string,
    logLevel: string)

  /** `Get` before any command-line flag is parsed: every field is its
      environment variable or the default, and an unset or empty LOG_LEVEL is
      first written back as the environment's default level. Returns the
      configuration and the environment afterwards. */
  function Get(env: Env): (r: (Config, Env))
    ensures r.0.appEnv == Getenv(env, "APP_ENV", Production)
    ensures r.0.dbName == Getenv(env, "DB_DATABASE", "meow.db")
    ensures r.0.apiPort == Getenv(env, "API_PORT", "8080")
    ensures r.0.msgstoreUser == Getenv(env, "DB_MSGSTORE_USERNAME", "root")
    ensures r.0.msgstorePswd == Getenv(env, "DB_MSGSTORE_PASSWORD", "password")
    ensures r.0.msgstorePort == Getenv(env, "DB_MSGSTORE_PORT", "3306")
    ensures r.0.msgstoreHost == Getenv(env, "DB_MSGSTORE_HOST", "localhost")
    ensures r.0.msgstoreName == Getenv(env, "DB_MSGSTORE_DATABASE", "forge")
    ensures "LOG_LEVEL" in r.1 && r.0.logLevel == r.1["LOG_LEVEL"] && r.0.logLevel != ""
    ensures Getenv(env, "LOG_LEVEL", "") != "" ==> r.1 == env
    ensures Getenv(env, "LOG_LEVEL", "") == "" ==> r.0.logLevel == DefaultLogLevel(r.0.appEnv)
    ensures r.1.Keys == env.Keys + {"LOG_LEVEL"}
    ensures forall k :: k in env && k != "LOG_LEVEL" ==> r.1[k] == env[k]
  {
    var appEnv := Getenv(env, "APP_ENV", Production);
    var env' := if Getenv(env, "LOG_LEVEL", "") == "" then env["LOG_LEVEL" := DefaultLogLevel(appEnv)] else env;
    var c := Config(
      appEnv,
      Getenv(env, "DB_DATABASE", "meow.db"),
      Getenv(env, "DB_MSGSTORE_USERNAME", "root"),
      Getenv(env, "DB_MSGSTORE_PASSWORD", "password"),
      Getenv(env, "DB_MSGSTORE_PORT", "3306"),
      Getenv(env, "DB_MSGSTORE_HOST", "localhost"),
      Getenv(env, "DB_MSGSTORE_DATABASE", "forge"),
      Getenv(env, "API_PORT", "8080"),
      Getenv(env', "LOG_LEVEL", "info"));
    (c, env')
  }

  /** The write-back is stable: the environment `Get` leaves behind yields
      the same configuration again and needs no further write. */
  lemma GetIsIdempotent(env: Env)
    ensures Get(Get(env).1) == Get(env)
  {
  }

  /** With nothing set, the production defaults apply. */
  lemma GetEmptyEnvironment()
    ensures Get(map[]).0 == Config(Production, "meow.db", "root", "password", "3306", "localhost", "forge", "8080", "info")
    ensures Get(map[]).1 == map["LOG_LEVEL" := "info"]
  {
  }

  const ForeignKeysOption := "?_foreign_keys=on"

  /** `GetDBConnStr`: the SQLite file URI of the session store. */
  function GetDBConnStr(c: Config): (s: string)
    ensures |s| == 5 + |c.dbName| + |ForeignKeysOption|
    ensures IsPrefix("file:", s) && IsSuffix(ForeignKeysOption, s)
    ensures s[5..|s| - |ForeignKeysOption|] == c.dbName
  {
    "file:" + c.dbName + ForeignKeysOption
  }

  const MySQLOptions := "?multiStatements=true&charset=utf8mb4&parseTime=True&loc=Local"

  /** `GetMySQLConnectionString`: user:password@tcp(host:port)/name?options. */
  function GetMySQLConnectionString(c: Config): (s: string)
    ensures IsPrefix(c.msgstoreUser + ":" + c.msgstorePswd + "@tcp(", s)
    ensures IsSuffix(")/" + c.msgstoreName + MySQLOptions, s)
    ensures |s| == |c.msgstoreUser| + |c.msgstorePswd| + |c.msgstoreHost| + |c.msgstorePort| + |c.msgstoreName| + |MySQLOptions| + 9
    ensures s[|c.msgstoreUser| + |c.msgstorePswd| + 6..|s| - |c.msgstoreName| - |MySQLOptions| - 2]
            == c.msgstoreHost + ":" + c.msgstorePort
  {
    c.msgstoreUser + ":" + c.msgstorePswd + "@tcp(" + c.msgstoreHost + ":" + c.msgstorePort + ")/" + c.msgstoreName + MySQLOptions
  }

  /** A user name without ':' is read back as everything before the first ':'. */
  lemma MySQLUserRecoverable(c: Config)
    requires ':' !in c.msgstoreUser
    ensures BeforeFirst(GetMySQLConnectionString(c), ':') == c.msgstoreUser
  {
    var s := GetMySQLConnectionString(c);
    var u := c.msgstoreUser;
    assert s[..|u|] == u && s[|u|] == ':';
    BeforeFirstIsEarliest(s, ':', u);
  }

  /** The earliest occurrence of `c` is where BeforeFirst stops. */
  lemma {:induction false} BeforeFirstIsEarliest(s: string, c: char, p: string)
    requires IsPrefix(p, s) && c !in p && (|p| == |s| || s[|p|] == c)
    ensures BeforeFirst(s, c) == p
    decreases |p|
  {
    if |p| > 0 {
      assert s[0] == p[0];
      BeforeFirstIsEarliest(s[1..], c, p[1..]);
    }
  }

  /** `GetAPIPort`: the listen address ":" + port. */
  function GetAPIPort(c: Config): (a: string)
    ensures |a| == |c.apiPort| + 1 && a[0] == ':' && a[1..] == c.apiPort
  {
    ":" + c.apiPort
  }

  /** `GetLogLevel`: the configured level, upper-cased. */
  function GetLogLevel(c: Config): (l: string)
    ensures |l| == |c.logLevel|
    ensures forall i :: 0 <= i < |l| ==> l[i] == UpperChar(c.logLevel[i])
    ensures ToUpper(l) == l
  {
    ToUpperIdempotent(c.logLevel);
    ToUpper(c.logLevel)
  }

  /** `ConnectToWhatsmeowDB`'s level for the session-store logger. */
  function WhatsmeowDBLogLevel(c: Config): (l: string)
    ensures l == "ERROR" || l == "INFO"
    ensures l == "ERROR" <==> c.appEnv == Production
  {
    if c.appEnv != Production then "INFO" else "ERROR"
  }

  /** `ConnectToDB`'s logger configuration for the message store. */
  function MessageStoreLogConfig(c: Config): (g: GormLogger.GormConfig)
    ensures g.slowThreshold == 2_000_000_000
    ensures g.ignoreRecordNotFoundError && !g.parameterizedQueries
    ensures g.logLevel == GormLogger.LogLevelToGormLevel(GetLogLevel(c))
  {
    GormLogger.GormConfig(2_000_000_000, GormLogger.LogLevelToGormLevel(GetLogLevel(c)), true, false)
  }

  /** A configured level the table does not know, in any letter case, silences
      the SQL logger; a known one, in any letter case, never does. */
  lemma MessageStoreSilentIffUnknownLevel(c: Config)
    ensures MessageStoreLogConfig(c).logLevel == GormLogger.Silent
            <==> ToUpper(c.logLevel) !in {"DEBUG", "INFO", "WARN", "ERROR"}
  {
  }

  /** The SQL logger's level for a configuration whose upper-cased level is
      `upper`. */
  lemma MessageStoreLevelOfName(c: Config, upper: string)
    requires |c.logLevel| == |upper|
    requires forall i :: 0 <= i < |upper| ==> upper[i] == UpperChar(c.logLevel[i])
    ensures MessageStoreLogConfig(c).logLevel == GormLogger.LogLevelToGormLevel(upper)
  {
    UpperLiteral(c.logLevel, upper);
  }

  /** With LOG_LEVEL unset, a "local" application environment makes the SQL
      logger log at Debug. */
  lemma MessageStoreDebugWhenLocal(env: Env)
    requires "LOG_LEVEL" !in env && Getenv(env, "APP_ENV", Production) == "local"
    ensures MessageStoreLogConfig(Get(env).0).logLevel == GormLogger.Debug
  {
    var c := Get(env).0;
    assert c.logLevel == "debug";
    MessageStoreLevelOfName(c, "DEBUG");
  }

  /** With neither LOG_LEVEL nor APP_ENV set, the production default makes the
      SQL logger log at Info. */
  lemma MessageStoreInfoByDefault(env: Env)
    requires "LOG_LEVEL" !in env && "APP_ENV" !in env
    ensures MessageStoreLogConfig(Get(env).0).logLevel == GormLogger.Info
  {
    var c := Get(env).0;
    assert c.logLevel == "info";
    MessageStoreLevelOfName(c, "INFO");
  }

  lemma UpperLiteral(lower: string, upper: string)
    requires |lower| == |upper|
    requires forall i :: 0 <= i < |lower| ==> upper[i] == UpperChar(lower[i])
    ensures ToUpper(lower) == upper
  {
  }
}

=== FILE: dispatcher.dfy ===
/** The per-session event handler and the poll-vote transaction
    (pkg/wmeow/client_events.go). The library's events form a closed union; what
    the library computes for an event (the pairing JID's text, the decrypted
    vote, the push name) arrives as part of it or as an input. */
module EventHandling {
  import opened Common
  import opened Hex
  import opened Models
  import opened PollDetails
  import opened Sessions

  datatype ReceiptKind = ReadReceipt | OtherReceipt

  /** A poll update carried by an incoming message: the key of the poll
      message it answers and the decrypted vote's selected option hashes, or
      None when decryption fails. */
  datatype PollUpdate = PollUpdate(pollMessageId: string, selected: Option<seq<seq<byte>>>)

  datatype Event =
    | AppStateSyncComplete
    | Connected
    | PushNameSetting
    | PairSuccess(jid: string)
    | StreamReplaced
    | IncomingMessage(poll: Option<PollUpdate>, timestamp: int)
    | Receipt(kind: ReceiptKind, messageIds: seq<string>, timestamp: int)
    | Presence
    | HistorySync
    | AppState
    | LoggedOut
    | ChatPresence
    | CallOffer
    | CallAccept
    | CallTerminate
    | CallOfferNotice
    | CallRelayLatency
    | Unrecognized(name: string)

  /** The events the handler only logs, or ignores: everything but a connection,
      a push-name change, a pairing, a logout, a poll update and a read receipt. */
  predicate Inert(e: Event) {
    match e
    case Connected | PushNameSetting | PairSuccess(_) | LoggedOut => false
    case IncomingMessage(poll, _) => poll.None?
    case Receipt(kind, _, _) => kind != ReadReceipt
    case _ => true
  }

  /** Everything the handler can write: the session state (registry and
      device rows) and the message-store tables. */
  datatype Store = Store(
    session: State,
    messages: seq<Message>,
    polls: seq<Poll>,
    details: seq<PollDetail>,
    histories: seq<PollHistory>)

  /** Whether each of the vote transaction's two saves fails. */
  datatype VoteFaults = VoteFaults(messageSaveFails: bool, historySaveFails: bool)

  /** The handler returns, or blocks on a kill signal nobody can receive. */
  datatype Handled = Handled(store: Store) | HandlerBlocked

  /** An update applied, in turn, for each listed message id. */
  function UpdateEach(ms: seq<Message>, ids: seq<string>, u: MessageUpdate): (r: seq<Message>)
    ensures |r| == |ms|
    ensures forall i :: 0 <= i < |ms| && ms[i].messageId in ids ==> r[i] == ApplyUpdate(ms[i], u)
    ensures forall i :: 0 <= i < |ms| && ms[i].messageId !in ids ==> r[i] == ms[i]
    decreases |ids|
  {
    if |ids| == 0 then ms
    else
      var once := UpdateWhere(ms, ids[0], u);
      var rest := UpdateEach(once, ids[1..], u);
      assert forall i :: 0 <= i < |ms| && ms[i].messageId == ids[0] ==> rest[i] == ApplyUpdate(ms[i], u) by {
        forall i | 0 <= i < |ms| && ms[i].messageId == ids[0]
          ensures rest[i] == ApplyUpdate(ms[i], u)
        {
          ApplyUpdateIdempotent(ms[i], u);
        }
      }
      rest
  }

  /** Applying the same per-id update twice equals applying it once, so the
      two receipt goroutines together write what either writes alone. */
  lemma UpdateEachIdempotent(ms: seq<Message>, ids: seq<string>, u: MessageUpdate)
    ensures UpdateEach(UpdateEach(ms, ids, u), ids, u) == UpdateEach(ms, ids, u)
  {
    var once := UpdateEach(ms, ids, u);
    var twice := UpdateEach(once, ids, u);
    forall i | 0 <= i < |ms|
      ensures twice[i] == once[i]
    {
      if ms[i].messageId in ids {
        ApplyUpdateIdempotent(ms[i], u);
      }
    }
  }

  /** The stored form of the vote's choice: the lowercase hex of the last
      selected option hash, or "" when none is selected. */
  function VoteHash(selected: seq<seq<byte>>): (h: string)
    ensures |selected| == 0 ==> h == ""
    ensures |selected| > 0 ==> IsLowerHex(h) && DecodeHex(h) == Some(selected[|selected| - 1])
  {
    if |selected| == 0 then ""
    else
      DecodeHexLower(selected[|selected| - 1]);
      HexLower(selected[|selected| - 1])
  }

  /** Only the last selection counts. */
  lemma VoteHashIsLastSelection(earlier: seq<seq<byte>>, last: seq<byte>)
    ensures VoteHash(earlier + [last]) == VoteHash([last])
  {
  }

  /** A vote for an option's SHA-256 matches the hash the creation hook
      stored for that option. */
  lemma VoteMatchesCreatedDetail(selected: seq<seq<byte>>, p: PollDetail, freshId: Ulid, sha256: string -> Digest)
    requires |selected| > 0 && selected[|selected| - 1] == sha256(p.option) && p.optionSha256 == ""
    ensures VoteHash(selected) == BeforeCreate(p, freshId, sha256).optionSha256
  {
  }

  /** The key of the poll the message belongs to, as the preload finds it:
      the message's poll id when that poll exists, otherwise the zero key "". */
  function PreloadedPollId(polls: seq<Poll>, pollId: string): (key: string)
    ensures key == pollId || key == ""
    ensures (exists i :: 0 <= i < |polls| && polls[i].id == pollId) ==> key == pollId
    ensures (forall i :: 0 <= i < |polls| ==> polls[i].id != pollId) ==> key == ""
  {
    if |polls| == 0 then ""
    else if polls[0].id == pollId then pollId
    else PreloadedPollId(polls[1..], pollId)
  }

  /** Position of the first detail of the poll whose stored hash is `hash`. */
  function FindVotedDetail(details: seq<PollDetail>, pollId: string, hash: string): (k: Option<nat>)
    ensures k.Some? ==> k.value < |details| && details[k.value].pollId == pollId && details[k.value].optionSha256 == hash
    ensures k.Some? ==> forall j :: 0 <= j < k.value ==> !(details[j].pollId == pollId && details[j].optionSha256 == hash)
    ensures k.None? ==> forall j :: 0 <= j < |details| ==> !(details[j].pollId == pollId && details[j].optionSha256 == hash)
  {
    if |details| == 0 then None
    else if details[0].pollId == pollId && details[0].optionSha256 == hash then Some(0)
    else match FindVotedDetail(details[1..], pollId, hash)
      case None => None
      case Some(k) => Some(k + 1)
  }

  /** The detail id recorded for a vote; the lookup's error is not checked, so
      no match records the zero id "". */
  function VotedDetailId(details: seq<PollDetail>, pollId: string, hash: string): (id: string)
    ensures (exists j :: 0 <= j < |details| && details[j].pollId == pollId && details[j].optionSha256 == hash) ==>
              exists j :: 0 <= j < |details| && details[j].pollId == pollId && details[j].optionSha256 == hash && details[j].id == id
    ensures (forall j :: 0 <= j < |details| ==> !(details[j].pollId == pollId && details[j].optionSha256 == hash)) ==> id == ""
  {
    match FindVotedDetail(details, pollId, hash)
    case None => ""
    case Some(j) => details[j].id
  }

  /** The history row a committed vote adds. */
  function HistoryOf(historyId: Ulid, m: Message): (h: PollHistory)
    ensures h.id == historyId && h.pollId == m.pollId && h.deviceId == m.deviceId
    ensures h.pollDetailId == m.pollDetailId && h.messageId == m.messageId
    ensures h.destination == m.destination && h.answeredAt == m.answeredAt
  {
    PollHistory(historyId, m.pollId, m.deviceId, m.pollDetailId, m.messageId, m.destination, m.answeredAt)
  }

  /** `PollVote`: find the poll message, match the vote's hash against the
      poll's details, then save the message and a history row together. */
  function PollVote(st: Store, pollMessageId: string, selected: seq<seq<byte>>, timestamp: int,
                    historyId: Ulid, faults: VoteFaults): (r: Store)
    ensures r.session == st.session && r.polls == st.polls && r.details == st.details
    ensures FindMessage(st.messages, pollMessageId).None? ==> r == st
    ensures faults.messageSaveFails || faults.historySaveFails ==> r == st
    ensures r != st ==>
              var k := FindMessage(st.messages, pollMessageId).value;
              var m := st.messages[k];
              var answered := m.(answeredAt := NullTime(timestamp, true),
                                 pollDetailId := VotedDetailId(st.details, PreloadedPollId(st.polls, m.pollId), VoteHash(selected)));
              r.messages == st.messages[k := answered]
              && r.histories == st.histories + [HistoryOf(historyId, answered)]
    ensures FindMessage(st.messages, pollMessageId).Some? && !faults.messageSaveFails && !faults.historySaveFails ==>
              |r.histories| == |st.histories| + 1
  {
    match FindMessage(st.messages, pollMessageId)
    case None => st
    case Some(k) =>
      var m := st.messages[k];
      var detailId := VotedDetailId(st.details, PreloadedPollId(st.polls, m.pollId), VoteHash(selected));
      var answered := m.(answeredAt := NullTime(timestamp, true), pollDetailId := detailId);
      if faults.messageSaveFails || faults.historySaveFails then st
      else st.(messages := st.messages[k := answered], histories := st.histories + [HistoryOf(historyId, answered)])
  }

  /** A committed vote records a detail of the message's poll whose stored
      hash is the vote's, whenever such a detail exists. */
  lemma CommittedVoteRecordsMatchingDetail(st: Store, pollMessageId: string, selected: seq<seq<byte>>, timestamp: int, historyId: Ulid, j: nat)
    requires FindMessage(st.messages, pollMessageId).Some?
    requires var m := st.messages[FindMessage(st.messages, pollMessageId).value];
             j < |st.details| && st.details[j].pollId == m.pollId && st.details[j].optionSha256 == VoteHash(selected)
             && exists i :: 0 <= i < |st.polls| && st.polls[i].id == m.pollId
    ensures var r := PollVote(st, pollMessageId, selected, timestamp, historyId, VoteFaults(false, false));
            var h := r.histories[|r.histories| - 1];
            exists d :: 0 <= d < |st.details| && st.details[d].id == h.pollDetailId
                        && st.details[d].pollId == h.pollId && st.details[d].optionSha256 == VoteHash(selected)
  {
  }

  /** A second vote on the same message overwrites its answer and adds a second history row. */
  lemma LaterVoteOverwrites(st: Store, pollMessageId: string, s1: seq<seq<byte>>, t1: int, h1: Ulid,
                            s2: seq<seq<byte>>, t2: int, h2: Ulid)
    requires FindMessage(st.messages, pollMessageId).Some?
    ensures var mid := PollVote(st, pollMessageId, s1, t1, h1, VoteFaults(false, false));
            var r := PollVote(mid, pollMessageId, s2, t2, h2, VoteFaults(false, false));
            var k := FindMessage(st.messages, pollMessageId).value;
            |r.histories| == |st.histories| + 2
            && r.messages[k].answeredAt == NullTime(t2, true)
            && r.histories[|st.histories|].answeredAt == NullTime(t1, true)
            && r.histories[|st.histories| + 1].answeredAt == NullTime(t2, true)
  {
    var k := FindMessage(st.messages, pollMessageId).value;
    var mid := PollVote(st, pollMessageId, s1, t1, h1, VoteFaults(false, false));
    assert mid.messages[k].messageId == pollMessageId;
    assert forall j :: 0 <= j < k ==> mid.messages[j] == st.messages[j];
    assert FindMessage(mid.messages, pollMessageId) == Some(k);
  }

  /** The writes of the read-receipt case's two goroutines, one after the
      other: they mark the same rows, so together they write what one does. */
  function ReadReceiptWrites(ms: seq<Message>, ids: seq<string>, timestamp: int): (r: seq<Message>)
    ensures r == UpdateEach(ms, ids, MarkRead(timestamp))
  {
    var first := UpdateEach(ms, ids, MarkRead(timestamp));
    UpdateEachIdempotent(ms, ids, MarkRead(timestamp));
    UpdateEach(first, ids, MarkRead(timestamp))
  }

  /** The logged-out case: the session's `Logout`. */
  function LoggedOutEffect(st: Store, k: nat): (h: Handled)
    requires k < |st.session.devices|
    ensures Logout(st.session, k).Blocked? <==> h.HandlerBlocked?
    ensures h.Handled? ==> h.store == st.(session := Logout(st.session, k).state)
  {
    match Logout(st.session, k)
    case Blocked => HandlerBlocked
    case Delivered(s) => Handled(st.(session := s))
  }

  /** The session's device saved with the given changes. */
  function WithDevice(st: Store, d: Device): (r: Store)
    ensures r.session.reg == st.session.reg && r.messages == st.messages && r.histories == st.histories
    ensures r.session.devices == SaveDevice(st.session.devices, d)
  {
    st.(session := st.session.(devices := SaveDevice(st.session.devices, d)))
  }

  /** An incoming message: only a decryptable poll update writes anything. */
  function IncomingMessageEffect(st: Store, poll: Option<PollUpdate>, timestamp: int, historyId: Ulid, faults: VoteFaults): (r: Store)
    ensures poll.None? || poll.value.selected.None? ==> r == st
    ensures poll.Some? && poll.value.selected.Some? ==>
              r == PollVote(st, poll.value.pollMessageId, poll.value.selected.value, timestamp, historyId, faults)
  {
    match poll
    case None => st
    case Some(update) =>
      (match update.selected
       case None => st
       case Some(selected) => PollVote(st, update.pollMessageId, selected, timestamp, historyId, faults))
  }

  /** `myEventHandler` for the client of the device row at position `k`,
      whose store push name is `pushName`. */
  function HandleEvent(st: Store, k: nat, pushName: string, e: Event, historyId: Ulid, faults: VoteFaults): (h: Handled)
    requires k < |st.session.devices|
    ensures e.IncomingMessage? ==> h == Handled(IncomingMessageEffect(st, e.poll, e.timestamp, historyId, faults))
  {
    var device := st.session.devices[k];
    match e
    case Connected | PushNameSetting =>
      if |pushName| == 0 then Handled(st) else Handled(WithDevice(st, device.(isConnected := true)))
    case PairSuccess(jid) => Handled(WithDevice(st, device.(jid := NullString(jid, true), isConnected := true)))
    case IncomingMessage(poll, timestamp) => Handled(IncomingMessageEffect(st, poll, timestamp, historyId, faults))
    case Receipt(kind, ids, timestamp) =>
      if kind == ReadReceipt then Handled(st.(messages := ReadReceiptWrites(st.messages, ids, timestamp)))
      else Handled(st)
    case LoggedOut => LoggedOutEffect(st, k)
    case _ => Handled(st)
  }

  /** The events the handler only logs change nothing. */
  lemma InertEventsChangeNothing(st: Store, k: nat, pushName: string, e: Event, historyId: Ulid, faults: VoteFaults)
    requires k < |st.session.devices| && Inert(e)
    ensures HandleEvent(st, k, pushName, e, historyId, faults) == Handled(st)
  {
  }

  /** Without a push name, a connection changes nothing. */
  lemma ConnectedWithoutPushNameInert(st: Store, k: nat, e: Event, historyId: Ulid, faults: VoteFaults)
    requires k < |st.session.devices| && (e.Connected? || e.PushNameSetting?)
    ensures HandleEvent(st, k, "", e, historyId, faults) == Handled(st)
  {
  }

  /** A poll update that cannot be decrypted writes nothing. */
  lemma UndecryptableVoteWritesNothing(st: Store, k: nat, pushName: string, pollMessageId: string, timestamp: int, historyId: Ulid, faults: VoteFaults)
    requires k < |st.session.devices|
    ensures HandleEvent(st, k, pushName, IncomingMessage(Some(PollUpdate(pollMessageId, None)), timestamp), historyId, faults) == Handled(st)
  {
  }

  /** With a push name set, a connection marks the session's device row connected and changes nothing else. */
  lemma ConnectedMarksDevice(st: Store, k: nat, pushName: string, e: Event, historyId: Ulid, faults: VoteFaults)
    requires k < |st.session.devices| && (e.Connected? || e.PushNameSetting?) && pushName != ""
    ensures HandleEvent(st, k, pushName, e, historyId, faults)
            == Handled(st.(session := st.session.(devices := SaveDevice(st.session.devices, st.session.devices[k].(isConnected := true)))))
  {
  }

  /** A read receipt applies the read update once for each listed id. */
  lemma ReadReceiptMarksOnce(st: Store, k: nat, pushName: string, ids: seq<string>, timestamp: int, historyId: Ulid, faults: VoteFaults)
    requires k < |st.session.devices|
    ensures HandleEvent(st, k, pushName, Receipt(ReadReceipt, ids, timestamp), historyId, faults)
            == Handled(st.(messages := UpdateEach(st.messages, ids, MarkRead(timestamp))))
  {
  }

  /** A logged-out event has exactly the effects of the session's `Logout`. */
  lemma LoggedOutIsLogout(st: Store, k: nat, pushName: string, historyId: Ulid, faults: VoteFaults)
    requires k < |st.session.devices|
    ensures var h := HandleEvent(st, k, pushName, LoggedOut, historyId, faults);
            (h.HandlerBlocked? <==> Logout(st.session, k).Blocked?)
            && (h.Handled? ==> h.store == st.(session := Logout(st.session, k).state))
  {
  }

  /** A read receipt marks exactly the listed messages read at its timestamp. */
  lemma ReadReceiptMarksListed(st: Store, k: nat, pushName: string, ids: seq<string>, timestamp: int, historyId: Ulid, faults: VoteFaults, i: nat)
    requires k < |st.session.devices| && i < |st.messages|
    ensures var h := HandleEvent(st, k, pushName, Receipt(ReadReceipt, ids, timestamp), historyId, faults);
            h.Handled?
            && (!st.messages[i].read ==> (h.store.messages[i].read <==> st.messages[i].messageId in ids))
            && (st.messages[i].messageId in ids ==> h.store.messages[i].read && h.store.messages[i].readAt == NullTime(timestamp, true))
            && (st.messages[i].messageId !in ids ==> h.store.messages[i] == st.messages[i])
  {
    ReadReceiptMarksOnce(st, k, pushName, ids, timestamp, historyId, faults);
  }

  /** Only the session's own device row changes on pairing, and it keeps its QR code. */
  lemma PairSuccessTouchesOwnRow(st: Store, k: nat, pushName: string, jid: string, historyId: Ulid, faults: VoteFaults, i: nat)
    requires k < |st.session.devices| && i < |st.session.devices|
    ensures var h := HandleEvent(st, k, pushName, PairSuccess(jid), historyId, faults);
            var t := h.store.session.devices;
            h.Handled? && h.store == st.(session := st.session.(devices := t))
            && (st.session.devices[i].id == st.session.devices[k].id ==>
               t[i].jid == NullString(jid, true) && t[i].isConnected && t[i].qrCode == st.session.devices[k].qrCode)
            && (st.session.devices[i].id != st.session.devices[k].id ==> t[i] == st.session.devices[i])
  {
  }
}

=== FILE: gormlogger.dfy ===
/** The SQL logger handed to the ORM (pkg/config/dblogger/gormlogger.go):
    level constants, name-to-level mapping, per-call gating and the choice of
    which trace line, if any, a finished query produces. */
module GormLogger {

  /** `logger.LogLevel` is a plain int; the named levels are 1..5. */
  type LogLevel = int

  const Silent: LogLevel := 1
  const Error: LogLevel := 2
  const Warn: LogLevel := 3
  const Info: LogLevel := 4
  const Debug: LogLevel := 5

  /** `levelToGormLevel`. */
  const LevelToGormLevel: map<string, LogLevel> :=
    map["" := Silent, "DEBUG" := Debug, "INFO" := Info, "WARN" := Warn, "ERROR" := Error]

  function LogLevelToGormLevel(level: string): (l: LogLevel)
    ensures Silent <= l <= Debug
    ensures level !in LevelToGormLevel ==> l == Silent
    ensures level in LevelToGormLevel ==> l == LevelToGormLevel[level]
  {
    if level in LevelToGormLevel then LevelToGormLevel[level] else Silent
  }

  /** The level name that maps to each verbose level. */
  function LevelName(l: LogLevel): string
    requires Error <= l <= Debug
  {
    if l == Error then "ERROR" else if l == Warn then "WARN" else if l == Info then "INFO" else "DEBUG"
  }

  /** Every non-silent level is reached from exactly its own name. */
  lemma LevelNameRoundTrip(l: LogLevel)
    requires Error <= l <= Debug
    ensures LogLevelToGormLevel(LevelName(l)) == l
  {
  }

  /** The lookup is exact: a lower-case name is not recognised. */
  lemma LowerCaseNameIsSilent()
    ensures LogLevelToGormLevel("debug") == Silent
  {
  }

  /** The embedded `logger.Config`. `slowThreshold` is a duration in nanoseconds. */
  datatype GormConfig = GormConfig(
    slowThreshold: int,
    logLevel: LogLevel,
    ignoreRecordNotFoundError: bool,
    parameterizedQueries: bool)

  /** `LogMode`: a copy with a new level; the receiver is a value and stays as it was. */
  function LogMode(c: GormConfig, level: LogLevel): (r: GormConfig)
    ensures r.logLevel == level
    ensures r.slowThreshold == c.slowThreshold
    ensures r.ignoreRecordNotFoundError == c.ignoreRecordNotFoundError
    ensures r.parameterizedQueries == c.parameterizedQueries
  {
    c.(logLevel := level)
  }

  /** Setting the level twice keeps the last; setting the current level changes nothing. */
  lemma LogModeOverrides(c: GormConfig, a: LogLevel, b: LogLevel)
    ensures LogMode(LogMode(c, a), b) == LogMode(c, b)
    ensures LogMode(c, c.logLevel) == c
  {
  }

  datatype MessageKind = InfoMessage | WarnMessage | ErrorMessage

  function KindLevel(k: MessageKind): LogLevel {
    match k
    case InfoMessage => Info
    case WarnMessage => Warn
    case ErrorMessage => Error
  }

  /** Whether `Info`, `Warn` or `Error` writes its message. */
  function Emits(c: GormConfig, k: MessageKind): (b: bool)
    ensures b <==> c.logLevel >= KindLevel(k)
  {
    match k
    case InfoMessage => c.logLevel >= Info
    case WarnMessage => c.logLevel >= Warn
    case ErrorMessage => c.logLevel >= Error
  }

  /** Raising the level never silences a message kind; Silent silences them all. */
  lemma EmitsMonotone(c: GormConfig, higher: LogLevel, k: MessageKind)
    requires c.logLevel <= higher
    ensures Emits(c, k) ==> Emits(LogMode(c, higher), k)
    ensures c.logLevel <= Silent ==> !Emits(c, k)
  {
  }

  /** The error passed to `Trace`. */
  datatype QueryError = NoError | RecordNotFound | OtherError

  /** The line `Trace` writes, with the row count it reports. */
  datatype TraceLine = NoLine | ErrorLine(rows: int, sql: string) | SlowLine(rows: int, sql: string) | DebugLine(rows: int, sql: string)

  /** The error case of `Trace`'s switch: an error the level lets through,
      unless it is a not-found error the configuration ignores. */
  predicate ReportedError(c: GormConfig, err: QueryError) {
    err != NoError && c.logLevel >= Error && !(err == RecordNotFound && c.ignoreRecordNotFoundError)
  }

  /** The slow-query case: over a non-zero threshold, at Warn or above. */
  predicate SlowQuery(c: GormConfig, elapsed: int) {
    c.slowThreshold != 0 && elapsed > c.slowThreshold && c.logLevel >= Warn
  }

  /** `Trace` for a query that took `elapsed` ns; `sql` and `rows` are what the
      query callback returns (`rows` is -1 when the driver reports none). */
  function Trace(c: GormConfig, elapsed: int, err: QueryError, sql: string, rows: int): (t: TraceLine)
    ensures c.logLevel <= Silent ==> t == NoLine
    ensures t.ErrorLine? ==> err != NoError && c.logLevel >= Error
    ensures t.SlowLine? ==> elapsed > c.slowThreshold && c.slowThreshold != 0 && c.logLevel >= Warn
    ensures t.DebugLine? ==> c.logLevel == Debug
    ensures !t.NoLine? ==> t.sql == sql && t.rows == (if rows == -1 then 0 else rows)
    ensures t.ErrorLine? <==> c.logLevel > Silent && ReportedError(c, err)
    ensures t.SlowLine? <==> c.logLevel > Silent && !ReportedError(c, err) && SlowQuery(c, elapsed)
    ensures t.DebugLine? <==> c.logLevel == Debug && !ReportedError(c, err) && !SlowQuery(c, elapsed)
  {
    if c.logLevel <= Silent then NoLine
    else
      var reported := if rows == -1 then 0 else rows;
      if err != NoError && c.logLevel >= Error && (err != RecordNotFound || !c.ignoreRecordNotFoundError) then
        ErrorLine(reported, sql)
      else if elapsed > c.slowThreshold && c.slowThreshold != 0 && c.logLevel >= Warn then
        SlowLine(reported, sql)
      else if c.logLevel == Debug then
        DebugLine(reported, sql)
      else NoLine
  }

  /** An error that is reported takes priority over the slow-query line. */
  lemma TraceErrorWins(c: GormConfig, elapsed: int, sql: string, rows: int)
    requires c.logLevel > Silent
    ensures Trace(c, elapsed, OtherError, sql, rows).ErrorLine?
  {
  }

  /** With the not-found error ignored, a missing row is traced like a success. */
  lemma TraceIgnoresNotFound(c: GormConfig, elapsed: int, sql: string, rows: int)
    requires c.ignoreRecordNotFoundError
    ensures Trace(c, elapsed, RecordNotFound, sql, rows) == Trace(c, elapsed, NoError, sql, rows)
  {
  }

  /** At Debug level every query produces exactly one line. */
  lemma TraceDebugAlwaysWrites(c: GormConfig, elapsed: int, err: QueryError, sql: string, rows: int)
    requires c.logLevel == Debug
    ensures !Trace(c, elapsed, err, sql, rows).NoLine?
  {
  }

  /** A zero threshold disables the slow-query line. */
  lemma TraceZeroThresholdNeverSlow(c: GormConfig, elapsed: int, err: QueryError, sql: string, rows: int)
    requires c.slowThreshold == 0
    ensures !Trace(c, elapsed, err, sql, rows).SlowLine?
  {
  }

  /** `ParamsFilter`: drops the parameters iff queries are parameterized. */
  function ParamsFilter<P>(c: GormConfig, sql: string, params: seq<P>): (r: (string, seq<P>))
    ensures r.0 == sql
    ensures c.parameterizedQueries ==> r.1 == []
    ensures !c.parameterizedQueries ==> r.1 == params
  {
    if c.parameterizedQueries then (sql, []) else (sql, params)
  }
}

=== FILE: hex.dfy ===
/** Lower-case hexadecimal text of a byte string, as Go's `fmt.Sprintf("%x", b)`
    prints a byte slice or byte array: two digits per byte, no separator. */
module Hex {
  import opened Common

  newtype byte = x: int | 0 <= x < 256

  predicate IsLowerHexDigit(ch: char) {
    '0' <= ch <= '9' || 'a' <= ch <= 'f'
  }

  predicate IsLowerHex(s: string) {
    forall i :: 0 <= i < |s| ==> IsLowerHexDigit(s[i])
  }

  function NibbleChar(n: int): (ch: char)
    requires 0 <= n < 16
    ensures IsLowerHexDigit(ch)
  {
    if n < 10 then ('0' as int + n) as char else ('a' as int + n - 10) as char
  }

  function CharNibble(ch: char): (n: Option<int>)
    ensures n.Some? <==> IsLowerHexDigit(ch)
    ensures n.Some? ==> 0 <= n.value < 16
  {
    if '0' <= ch <= '9' then Some(ch as int - '0' as int)
    else if 'a' <= ch <= 'f' then Some(ch as int - 'a' as int + 10)
    else None
  }

  /** The `%x` rendering of a byte string. */
  function HexLower(bs: seq<byte>): (r: string)
    ensures |r| == 2 * |bs|
    ensures IsLowerHex(r)
  {
    if |bs| == 0 then ""
    else [NibbleChar(bs[0] as int / 16), NibbleChar(bs[0] as int % 16)] + HexLower(bs[1..])
  }

  /** Reading hex text back into bytes; `None` for odd length or a non-digit. */
  function DecodeHex(s: string): Option<seq<byte>>
    decreases |s|
  {
    if |s| == 0 then Some([])
    else if |s| == 1 then None
    else
      match (CharNibble(s[0]), CharNibble(s[1]), DecodeHex(s[2..]))
      case (Some(hi), Some(lo), Some(rest)) => Some([(hi * 16 + lo) as byte] + rest)
      case _ => None
  }

  /** Decoding the `%x` text gives back exactly the bytes that were printed. */
  lemma {:induction false} DecodeHexLower(bs: seq<byte>)
    ensures DecodeHex(HexLower(bs)) == Some(bs)
  {
    if |bs| > 0 {
      var b := bs[0] as int;
      var s := HexLower(bs);
      assert CharNibble(s[0]) == Some(b / 16);
      assert CharNibble(s[1]) == Some(b % 16);
      assert s[2..] == HexLower(bs[1..]);
      DecodeHexLower(bs[1..]);
      assert bs == [bs[0]] + bs[1..];
    }
  }

  /** Two byte strings with the same `%x` text are equal. */
  lemma HexLowerInjective(a: seq<byte>, b: seq<byte>)
    requires HexLower(a) == HexLower(b)
    ensures a == b
  {
    DecodeHexLower(a);
    DecodeHexLower(b);
  }
}

=== FILE: jid.dfy ===
/** Recipient-address handling of the session layer: `ParseJID` and `StripJID`
    (pkg/wmeow/whatsmeow.go). The messaging library's own JID parser is an
    oracle passed in as a function. */
module Jids {
  import opened Strings

  const DefaultUserServer := "s.whatsapp.net"

  datatype Jid = Jid(user: string, server: string)

  /** What the library parser (`types.ParseJID`) returns: a JID and whether it erred. */
  datatype LibraryParse = LibraryParse(jid: Jid, failed: bool)

  /** `ParseJID`'s pair of results. */
  datatype Parsed = Parsed(jid: Jid, ok: bool)

  /** Removes at most one leading '+'. */
  function StripPlus(s: string): string {
    if |s| > 0 && s[0] == '+' then s[1..] else s
  }

  /** The part ParseJID requires to be all digits: the '+'-stripped input cut
      before its earliest '@', '.' or ':'. */
  function PhonePart(arg: string): string {
    CutAtSeparators(StripPlus(arg))
  }

  function ParseJid(arg: string, library: string -> LibraryParse): (r: Parsed)
    ensures arg == "" ==> r == Parsed(Jid("", DefaultUserServer), false)
    ensures arg != "" && !AllDigits(PhonePart(arg)) ==> r == Parsed(library("").jid, false)
    ensures arg != "" && '@' !in arg ==>
              (r.ok <==> AllDigits(PhonePart(arg)))
              && (r.ok ==> r.jid == Jid(StripPlus(arg), DefaultUserServer))
    ensures arg != "" && '@' in arg && AllDigits(PhonePart(arg)) ==>
              var p := library(StripPlus(arg));
              r == Parsed(p.jid, !p.failed && p.jid.user != "")
    ensures r.ok ==> arg != "" && AllDigits(PhonePart(arg))
  {
    if arg == "" then Parsed(Jid("", DefaultUserServer), false)
    else
      var a := StripPlus(arg);
      var phone := CutAtSeparators(a);
      if !AllDigits(phone) then Parsed(library("").jid, false)
      else if '@' !in a then Parsed(Jid(a, DefaultUserServer), true)
      else
        var p := library(a);
        if p.failed then Parsed(p.jid, false)
        else if p.jid.user == "" then Parsed(p.jid, false)
        else Parsed(p.jid, true)
  }

  /** A lone "+" is accepted: the digit check on its empty phone part holds vacuously. */
  lemma ParseJidLonePlus(library: string -> LibraryParse)
    ensures ParseJid("+", library) == Parsed(Jid("", DefaultUserServer), true)
  {
    assert PhonePart("+") == "";
  }

  /** Only ONE '+' is stripped: a second one lands in the phone part and fails the digit check. */
  lemma ParseJidStripsOnePlus(rest: string, library: string -> LibraryParse)
    ensures !ParseJid("++" + rest, library).ok
  {
    var arg := "++" + rest;
    assert StripPlus(arg) == "+" + rest;
    assert PhonePart(arg)[0] == '+';
  }

  /** Device and agent suffixes are kept in the user part when there is no
      server: "+" + digits + ".0:5" parses to user digits + ".0:5". */
  lemma ParseJidKeepsDeviceSuffix(digits: string, suffix: string, library: string -> LibraryParse)
    requires AllDigits(digits)
    requires |suffix| > 0 && (suffix[0] == '.' || suffix[0] == ':') && '@' !in suffix
    ensures ParseJid("+" + digits + suffix, library) == Parsed(Jid(digits + suffix, DefaultUserServer), true)
  {
    var arg := "+" + digits + suffix;
    var a := digits + suffix;
    assert StripPlus(arg) == a;
    assert a[..|digits|] == digits && a[|digits|] == suffix[0];
    CutAtSeparatorsIsEarliest(a, digits);
    assert '@' !in a;
  }

  /** `StripJID` over the text form of a JID (`JID.String()` is a library call;
      its output is the input here). Indexing `[0]` needs a non-empty text. */
  function StripJid(jidText: string): (r: string)
    requires |jidText| > 0
    ensures NoJidSeparator(r)
    ensures IsPrefix(r, StripPlus(jidText))
    ensures |r| == |StripPlus(jidText)| || IsJidSeparator(StripPlus(jidText)[|r|])
  {
    var v := if jidText[0] == '+' then jidText[1..] else jidText;
    CutAtSeparators(v)
  }

  /** StripJID returns exactly the phone part that ParseJID checks for digits. */
  lemma StripJidIsPhonePart(jidText: string)
    requires |jidText| > 0
    ensures StripJid(jidText) == PhonePart(jidText)
  {
  }
}

=== FILE: middleware.dfy ===
/** Named middleware lists and handler chaining (pkg/middleware/middleware.go).
    A middleware is identified by the code of its handler function (the source
    compares `reflect.ValueOf(h).Pointer()`), so handlers are abstract ids, and
    a chained `httprouter.Handle` is a term: an endpoint under layers of wrappers. */
module Middleware {

  type HandlerId = nat

  /** The two handler methods the application registers. */
  const LogRequestHandler: HandlerId := 0
  const AuthHandler: HandlerId := 1

  datatype Middleware = Middleware(handler: HandlerId)

  datatype Handle = Endpoint(name: string) | Wrapped(wrapper: HandlerId, inner: Handle)

  /** The wrappers of a handle, outermost first. */
  function Layers(h: Handle): seq<HandlerId> {
    match h
    case Endpoint(_) => []
    case Wrapped(m, inner) => [m] + Layers(inner)
  }

  /** The endpoint a handle eventually calls. */
  function Core(h: Handle): string {
    match h
    case Endpoint(name) => name
    case Wrapped(_, inner) => Core(inner)
  }

  function Handlers(ms: seq<Middleware>): (ids: seq<HandlerId>)
    ensures |ids| == |ms|
    ensures forall i :: 0 <= i < |ms| ==> ids[i] == ms[i].handler
  {
    if |ms| == 0 then [] else [ms[0].handler] + Handlers(ms[1..])
  }

  /** A handle is determined by its layers and its endpoint. */
  lemma {:induction false} HandleDeterminedByLayers(a: Handle, b: Handle)
    requires Layers(a) == Layers(b) && Core(a) == Core(b)
    ensures a == b
  {
    match a
    case Endpoint(_) =>
      assert b.Endpoint?;
    case Wrapped(m, inner) =>
      assert Layers(b) == [m] + Layers(inner);
      match b
      case Wrapped(m', inner') =>
        assert m' == Layers(b)[0] == m;
        assert Layers(inner) == Layers(b)[1..] == Layers(inner');
        HandleDeterminedByLayers(inner, inner');
  }

  /** `Chain`: wraps `f` right to left, so `m[0]` ends up outermost. */
  function Chain(f: Handle, m: seq<Middleware>): (h: Handle)
    ensures Layers(h) == Handlers(m) + Layers(f)
    ensures Core(h) == Core(f)
  {
    if |m| == 0 then f else Wrapped(m[0].handler, Chain(f, m[1..]))
  }

  predicate NoDup<T(==)>(s: seq<T>) {
    forall i, j :: 0 <= i < j < |s| ==> s[i] != s[j]
  }

  /** Position of the first occurrence of `x` in `s`. */
  function FirstIndex<T(==)>(s: seq<T>, x: T): (k: nat)
    requires x in s
    ensures k < |s| && s[k] == x
    ensures forall j :: 0 <= j < k ==> s[j] != x
  {
    if s[0] == x then 0 else 1 + FirstIndex(s[1..], x)
  }

  /** The first occurrence in a prefix is the first occurrence in the whole. */
  lemma FirstIndexInPrefix<T>(s: seq<T>, n: nat, x: T)
    requires n <= |s| && x in s[..n]
    ensures FirstIndex(s, x) == FirstIndex(s[..n], x)
  {
    var a, b := FirstIndex(s, x), FirstIndex(s[..n], x);
    assert s[b] == x;
    assert a <= b < n;
    assert s[..n][a] == x;
  }

  /** `Unique`: keeps the first occurrence of every handler, in input order. */
  function Unique(s: seq<Middleware>): (r: seq<Middleware>)
    ensures NoDup(r)
    ensures forall x :: x in r <==> x in s
    ensures |r| <= |s|
  {
    if |s| == 0 then []
    else
      var init := s[..|s| - 1];
      var u := Unique(init);
      var v := s[|s| - 1];
      assert s == init + [v];
      if v in u then u else u + [v]
  }

  /** Every element of `r` occurs in `s`, and `r` lists them in the order of
      their first occurrence in `s`. */
  predicate InFirstOccurrenceOrder(s: seq<Middleware>, r: seq<Middleware>) {
    (forall x :: x in r ==> x in s)
    && forall i, j :: 0 <= i < j < |r| ==> FirstIndex(s, r[i]) < FirstIndex(s, r[j])
  }

  /** An order by first occurrence in a prefix is one in the whole sequence,
      and every position it uses lies inside the prefix. */
  lemma PrefixOrder(s: seq<Middleware>, n: nat, u: seq<Middleware>)
    requires n <= |s| && InFirstOccurrenceOrder(s[..n], u)
    ensures InFirstOccurrenceOrder(s, u)
    ensures forall i :: 0 <= i < |u| ==> FirstIndex(s, u[i]) < n
  {
    forall i | 0 <= i < |u|
      ensures u[i] in s && FirstIndex(s, u[i]) == FirstIndex(s[..n], u[i]) < n
    {
      assert u[i] in u;
      FirstIndexInPrefix(s, n, u[i]);
    }
  }

  /** Appending an element that first occurs after all the others keeps the order. */
  lemma AppendLaterOccurrence(s: seq<Middleware>, u: seq<Middleware>, v: Middleware)
    requires InFirstOccurrenceOrder(s, u) && v in s
    requires forall i :: 0 <= i < |u| ==> FirstIndex(s, u[i]) < FirstIndex(s, v)
    ensures InFirstOccurrenceOrder(s, u + [v])
  {
    var r := u + [v];
    forall i, j | 0 <= i < j < |r|
      ensures FirstIndex(s, r[i]) < FirstIndex(s, r[j])
    {
      assert r[i] == u[i];
      if j < |u| {
        assert r[j] == u[j];
      }
    }
  }

  /** The survivors appear in the order of their first occurrence in the input. */
  lemma {:induction false} UniqueKeepsFirstOccurrenceOrder(s: seq<Middleware>)
    ensures InFirstOccurrenceOrder(s, Unique(s))
  {
    if |s| > 0 {
      var init := s[..|s| - 1];
      var u := Unique(init);
      var v := s[|s| - 1];
      UniqueKeepsFirstOccurrenceOrder(init);
      PrefixOrder(s, |init|, u);
      if v !in u {
        assert v !in init;
        assert FirstIndex(s, v) == |init|;
        AppendLaterOccurrence(s, u, v);
      }
    }
  }

  /** The nested loop of the source: for each middleware, scan the output built
      so far for the same handler and append it only when none is found. */
  method UniqueScan(middlewares: seq<Middleware>) returns (unique: seq<Middleware>)
    ensures unique == Unique(middlewares)
  {
    unique := [];
    var i := 0;
    while i < |middlewares|
      invariant 0 <= i <= |middlewares|
      invariant unique == Unique(middlewares[..i])
    {
      var v := middlewares[i];
      var found := false;
      var j := 0;
      while j < |unique| && !found
        invariant 0 <= j <= |unique|
        invariant found ==> v in unique
        invariant !found ==> v !in unique[..j]
        decreases |unique| - j, if found then 0 else 1
      {
        if unique[j].handler == v.handler {
          found := true;
        } else {
          j := j + 1;
        }
      }
      assert !found ==> unique[..j] == unique;
      if !found {
        unique := unique + [v];
      }
      assert middlewares[..i + 1][..i] == middlewares[..i];
      i := i + 1;
    }
    assert middlewares[..i] == middlewares;
  }

  /** A list without duplicates is its own `Unique`. */
  lemma {:induction false} UniqueOfNoDup(s: seq<Middleware>)
    requires NoDup(s)
    ensures Unique(s) == s
  {
    if |s| > 0 {
      var init := s[..|s| - 1];
      var v := s[|s| - 1];
      assert NoDup(init) by {
        forall i, j | 0 <= i < j < |init| ensures init[i] != init[j] {
          assert init[i] == s[i] && init[j] == s[j];
        }
      }
      UniqueOfNoDup(init);
      assert v !in init by {
        forall i | 0 <= i < |init| ensures init[i] != v {
          assert init[i] == s[i];
        }
      }
      assert Unique(s) == Unique(init) + [v];
      assert s == init + [v];
    }
  }

  /** Deduplicating twice is deduplicating once. */
  lemma UniqueIdempotent(s: seq<Middleware>)
    ensures Unique(Unique(s)) == Unique(s)
  {
    UniqueOfNoDup(Unique(s));
  }

  /** The named lists; a missing name reads as the empty list (Go's nil slice). */
  type Lists = map<string, seq<Middleware>>

  function Get(l: Lists, name: string): (r: seq<Middleware>)
    ensures name in l ==> r == l[name]
    ensures name !in l ==> r == []
  {
    if name in l then l[name] else []
  }

  function Set(l: Lists, name: string, middlewares: seq<Middleware>): (r: Lists)
    ensures Get(r, name) == middlewares
    ensures forall n :: n != name ==> Get(r, n) == Get(l, n)
    ensures r.Keys == l.Keys + {name}
  {
    l[name := middlewares]
  }

  function Append(l: Lists, to: string, middlewares: seq<Middleware>): (r: Lists)
    ensures Get(r, to) == Get(l, to) + middlewares
    ensures forall n :: n != to ==> Get(r, n) == Get(l, n)
    ensures r.Keys == l.Keys + {to}
  {
    l[to := Get(l, to) + middlewares]
  }

  function Prepend(l: Lists, to: string, middlewares: seq<Middleware>): (r: Lists)
    ensures Get(r, to) == middlewares + Get(l, to)
    ensures forall n :: n != to ==> Get(r, n) == Get(l, n)
    ensures r.Keys == l.Keys + {to}
  {
    l[to := middlewares + Get(l, to)]
  }

  function AppendFromCurrent(l: Lists, from: string, to: string): (r: Lists)
    ensures Get(r, to) == Get(l, to) + Get(l, from)
    ensures from != to ==> Get(r, from) == Get(l, from)
    ensures forall n :: n != to ==> Get(r, n) == Get(l, n)
  {
    l[to := Get(l, to) + Get(l, from)]
  }

  function PrependFromCurrent(l: Lists, from: string, to: string): (r: Lists)
    ensures Get(r, to) == Get(l, from) + Get(l, to)
    ensures from != to ==> Get(r, from) == Get(l, from)
    ensures forall n :: n != to ==> Get(r, n) == Get(l, n)
  {
    l[to := Get(l, from) + Get(l, to)]
  }

  /** The lists of `names` concatenated in argument order. */
  function Collect(l: Lists, names: seq<string>): (ms: seq<Middleware>)
    ensures forall x :: x in ms <==> exists i :: 0 <= i < |names| && x in Get(l, names[i])
  {
    if |names| == 0 then []
    else
      var init := Collect(l, names[..|names| - 1]);
      assert forall i :: 0 <= i < |names| - 1 ==> names[..|names| - 1][i] == names[i];
      init + Get(l, names[|names| - 1])
  }

  /** A single name collects exactly its own list. */
  lemma CollectSingle(l: Lists, n: string)
    ensures Collect(l, [n]) == Get(l, n)
  {
    assert [n][..0] == [];
  }

  /** Collecting distributes over the argument list: the lists come out in
      argument order, each as often as its name is given. */
  lemma {:induction false} CollectAppend(l: Lists, a: seq<string>, b: seq<string>)
    ensures Collect(l, a + b) == Collect(l, a) + Collect(l, b)
    decreases |b|
  {
    if |b| == 0 {
      assert a + b == a;
    } else {
      var b' := b[..|b| - 1];
      assert (a + b)[..|a + b| - 1] == a + b';
      assert (a + b)[|a + b| - 1] == b[|b| - 1];
      CollectAppend(l, a, b');
    }
  }

  /** `List.Chain`: concatenate the named lists, deduplicate, then chain. */
  function ListChain(l: Lists, f: Handle, names: seq<string>): (h: Handle)
    ensures Core(h) == Core(f)
    ensures Layers(h) == Handlers(Unique(Collect(l, names))) + Layers(f)
  {
    Chain(f, Unique(Collect(l, names)))
  }

  /** A name with no list contributes nothing to a chain, wherever it appears. */
  lemma ListChainIgnoresUnknownName(l: Lists, f: Handle, before: seq<string>, unknown: string, after: seq<string>)
    requires unknown !in l
    ensures ListChain(l, f, before + [unknown] + after) == ListChain(l, f, before + after)
  {
    CollectAppend(l, before + [unknown], after);
    CollectAppend(l, before, [unknown]);
    CollectAppend(l, before, after);
    CollectSingle(l, unknown);
    assert Collect(l, [unknown]) == [];
    assert Collect(l, before + [unknown]) == Collect(l, before);
    assert Collect(l, before + [unknown] + after) == Collect(l, before + after);
  }

  /** Every middleware of a named list wraps the chained handle exactly once. */
  lemma ListChainWrapsEachOnce(l: Lists, f: Handle, names: seq<string>, i: nat, m: Middleware)
    requires i < |names| && m in Get(l, names[i])
    ensures var layers := Handlers(Unique(Collect(l, names)));
            m.handler in layers && NoDup(layers)
  {
    var u := Unique(Collect(l, names));
    var layers := Handlers(u);
    assert m in u;
    var k :| 0 <= k < |u| && u[k] == m;
    assert layers[k] == m.handler;
  }

  /** `InitMiddlewareList`: "default" logs requests, "auth" authenticates first. */
  function InitMiddlewareList(): (l: Lists)
    ensures Get(l, "default") == [Middleware(LogRequestHandler)]
    ensures Get(l, "auth") == [Middleware(AuthHandler), Middleware(LogRequestHandler)]
    ensures l.Keys == {"default", "auth"}
  {
    var empty: Lists := map[];
    Set(Set(empty, "default", [Middleware(LogRequestHandler)]),
        "auth", [Middleware(AuthHandler), Middleware(LogRequestHandler)])
  }

  /** Chaining "auth" and "default" authenticates outermost and logs once. */
  lemma AuthDefaultChain(f: Handle)
    ensures Layers(ListChain(InitMiddlewareList(), f, ["auth", "default"]))
            == [AuthHandler, LogRequestHandler] + Layers(f)
  {
    var l := InitMiddlewareList();
    var c := Collect(l, ["auth", "default"]);
    assert ["auth", "default"][..1] == ["auth"];
    assert ["auth"][..0] == [];
    assert c == [Middleware(AuthHandler), Middleware(LogRequestHandler), Middleware(LogRequestHandler)];
    var a, g := Middleware(AuthHandler), Middleware(LogRequestHandler);
    assert [a][..0] == [];
    assert Unique([a]) == [a];
    assert [a, g][..1] == [a];
    assert Unique([a, g]) == [a, g];
    assert c[..2] == [a, g];
    assert Unique(c) == [a, g];
  }
}

=== FILE: models.dfy ===
/** The persisted records the session layer reads and writes (cmd/models),
    and the in-memory tables standing for the database. A table is a sequence
    of rows in primary-key order, so "the first row that matches" is what the
    ORM's `First` returns. */
module Models {
  import opened Common

  type DeviceId = int

  /** A paired (or pairing) phone account: `models.Device`. */
  datatype Device = Device(
    id: DeviceId,
    code: string,
    name: string,
    token: string,
    webhook: NullString,
    jid: NullString,
    qrCode: NullString,
    isConnected: bool,
    expiration: int,
    events: string)

  /** An outbound message row, with every column the session layer touches. */
  datatype Message = Message(
    id: int,
    jid: string,
    messageId: string,
    deviceId: DeviceId,
    destination: string,
    body: string,
    sent: bool,
    sentAt: NullTime,
    read: bool,
    readAt: NullTime,
    failed: bool,
    failedAt: NullTime,
    answeredAt: NullTime,
    pollId: string,
    pollDetailId: string,
    fileName: NullString)

  /** A poll row; only its key matters to the session layer. */
  datatype Poll = Poll(id: string, code: string, question: string)

  /** One recorded vote: `models.PollHistory`. */
  datatype PollHistory = PollHistory(
    id: string,
    pollId: string,
    deviceId: DeviceId,
    pollDetailId: string,
    messageId: string,
    destination: string,
    answeredAt: NullTime)

  /** The primary key: no two rows share an id. */
  predicate UniqueIds(rows: seq<Device>) {
    forall i, j :: 0 <= i < j < |rows| ==> rows[i].id != rows[j].id
  }

  /** Position of the first row with the given code, if any. */
  function FindDeviceByCode(rows: seq<Device>, code: string): (k: Option<nat>)
    ensures k.Some? ==> k.value < |rows| && rows[k.value].code == code
    ensures k.Some? ==> forall j :: 0 <= j < k.value ==> rows[j].code != code
    ensures k.None? ==> forall j :: 0 <= j < |rows| ==> rows[j].code != code
  {
    if |rows| == 0 then None
    else if rows[0].code == code then Some(0)
    else match FindDeviceByCode(rows[1..], code)
      case None => None
      case Some(k) => Some(k + 1)
  }

  /** The first row carrying a code is where the lookup lands. */
  lemma FindDeviceByCodeAt(rows: seq<Device>, code: string, k: nat)
    requires k < |rows| && rows[k].code == code
    requires forall j :: 0 <= j < k ==> rows[j].code != code
    ensures FindDeviceByCode(rows, code) == Some(k)
  {
  }

  /** `Save(&device)` of a device that has a row: every row with its id
      becomes the device; other rows stay. */
  function SaveDevice(rows: seq<Device>, d: Device): (r: seq<Device>)
    ensures |r| == |rows|
    ensures forall i :: 0 <= i < |rows| && rows[i].id == d.id ==> r[i] == d
    ensures forall i :: 0 <= i < |rows| && rows[i].id != d.id ==> r[i] == rows[i]
  {
    if |rows| == 0 then []
    else [if rows[0].id == d.id then d else rows[0]] + SaveDevice(rows[1..], d)
  }

  /** Position of the first message row with the given message id, if any. */
  function FindMessage(ms: seq<Message>, messageId: string): (k: Option<nat>)
    ensures k.Some? ==> k.value < |ms| && ms[k.value].messageId == messageId
    ensures k.Some? ==> forall j :: 0 <= j < k.value ==> ms[j].messageId != messageId
    ensures k.None? ==> forall j :: 0 <= j < |ms| ==> ms[j].messageId != messageId
  {
    if |ms| == 0 then None
    else if ms[0].messageId == messageId then Some(0)
    else match FindMessage(ms[1..], messageId)
      case None => None
      case Some(k) => Some(k + 1)
  }

  /** The column updates issued through `Model(&Message{}).Where("message_id = ?")`;
      the two flag-only updates are the legacy queue's, which leave the
      timestamps alone. */
  datatype MessageUpdate =
    | MarkSent(at: int)
    | MarkSentWithFile(at: int, fileName: string)
    | MarkFailed(at: int)
    | MarkRead(at: int)
    | MarkSentFlag
    | MarkReadFlag

  function ApplyUpdate(m: Message, u: MessageUpdate): Message {
    match u
    case MarkSent(at) => m.(sent := true, sentAt := NullTime(at, true))
    case MarkSentWithFile(at, f) => m.(sent := true, sentAt := NullTime(at, true), fileName := NullString(f, true))
    case MarkFailed(at) => m.(failed := true, failedAt := NullTime(at, true))
    case MarkRead(at) => m.(read := true, readAt := NullTime(at, true))
    case MarkSentFlag => m.(sent := true)
    case MarkReadFlag => m.(read := true)
  }

  /** An update applied to every row whose message id matches. */
  function UpdateWhere(ms: seq<Message>, messageId: string, u: MessageUpdate): (r: seq<Message>)
    ensures |r| == |ms|
    ensures forall i :: 0 <= i < |ms| && ms[i].messageId == messageId ==> r[i] == ApplyUpdate(ms[i], u)
    ensures forall i :: 0 <= i < |ms| && ms[i].messageId != messageId ==> r[i] == ms[i]
  {
    if |ms| == 0 then []
    else [if ms[0].messageId == messageId then ApplyUpdate(ms[0], u) else ms[0]] + UpdateWhere(ms[1..], messageId, u)
  }

  /** Every update writes a column pair idempotently. */
  lemma ApplyUpdateIdempotent(m: Message, u: MessageUpdate)
    ensures ApplyUpdate(ApplyUpdate(m, u), u) == ApplyUpdate(m, u)
  {
  }

  lemma UpdateWhereIdempotent(ms: seq<Message>, messageId: string, u: MessageUpdate)
    ensures UpdateWhere(UpdateWhere(ms, messageId, u), messageId, u) == UpdateWhere(ms, messageId, u)
  {
    var once := UpdateWhere(ms, messageId, u);
    var twice := UpdateWhere(once, messageId, u);
    forall i | 0 <= i < |ms|
      ensures twice[i] == once[i]
    {
      if ms[i].messageId == messageId {
        ApplyUpdateIdempotent(ms[i], u);
      }
    }
  }
}

=== FILE: outbound.dfy ===
/** The send operations of pkg/wmeow/client.go and what they record on the
    message row. The library's upload and send calls, the data-URL decoder and
    the MIME extension table are oracles; the clock is the `now` input. */
module Outbound {
  import opened Common
  import opened Strings
  import opened Models

  /** Only the columns a send records differ between `before` and `after`. */
  predicate OnlySendColumns(before: Message, after: Message) {
    after.(sent := before.sent, sentAt := before.sentAt, failed := before.failed,
           failedAt := before.failedAt, fileName := before.fileName) == before
  }

  /** A row no send has touched yet. */
  predicate Fresh(m: Message) {
    !m.sent && !m.failed
  }

  /** The row updates after the provider answered: an error marks the rows
      failed, a success marks them sent (and, for files, records the name). */
  function RecordSendResult(ms: seq<Message>, messageId: string, providerFails: bool, now: int, fileName: Option<string>): (r: seq<Message>)
    ensures |r| == |ms|
    ensures forall i :: 0 <= i < |ms| && ms[i].messageId != messageId ==> r[i] == ms[i]
    ensures forall i :: 0 <= i < |ms| && ms[i].messageId == messageId ==>
              OnlySendColumns(ms[i], r[i])
              && (providerFails ==> r[i].failed && r[i].failedAt == NullTime(now, true)
                                    && r[i].sent == ms[i].sent && r[i].sentAt == ms[i].sentAt)
              && (!providerFails ==> r[i].sent && r[i].sentAt == NullTime(now, true)
                                     && r[i].failed == ms[i].failed && r[i].failedAt == ms[i].failedAt)
              && (fileName.Some? && !providerFails ==> r[i].fileName == NullString(fileName.value, true))
              && (fileName.None? || providerFails ==> r[i].fileName == ms[i].fileName)
  {
    if providerFails then UpdateWhere(ms, messageId, MarkFailed(now))
    else match fileName
      case None => UpdateWhere(ms, messageId, MarkSent(now))
      case Some(f) => UpdateWhere(ms, messageId, MarkSentWithFile(now, f))
  }

  /** A fresh row ends up either sent or failed, never both. */
  lemma SentXorFailed(ms: seq<Message>, messageId: string, providerFails: bool, now: int, fileName: Option<string>, i: nat)
    requires i < |ms| && ms[i].messageId == messageId && Fresh(ms[i])
    ensures var r := RecordSendResult(ms, messageId, providerFails, now, fileName);
            r[i].sent != r[i].failed && (r[i].failed <==> providerFails)
  {
  }

  /** `SendTextMessage`: the update its goroutine makes. The call itself always returns nil. */
  function SendTextMessage(ms: seq<Message>, messageId: string, providerFails: bool, now: int): (r: seq<Message>)
    ensures |r| == |ms|
    ensures forall i :: 0 <= i < |ms| ==> OnlySendColumns(ms[i], r[i]) && r[i].fileName == ms[i].fileName
    ensures forall i :: 0 <= i < |ms| ==>
              (r[i].sent <==> ms[i].sent || (ms[i].messageId == messageId && !providerFails))
              && (r[i].failed <==> ms[i].failed || (ms[i].messageId == messageId && providerFails))
    ensures forall i :: 0 <= i < |ms| ==>
              r[i].sentAt == (if ms[i].messageId == messageId && !providerFails then NullTime(now, true) else ms[i].sentAt)
              && r[i].failedAt == (if ms[i].messageId == messageId && providerFails then NullTime(now, true) else ms[i].failedAt)
  {
    RecordSendResult(ms, messageId, providerFails, now, None)
  }

  /** `SendPollMessage`: the update its goroutine makes. */
  function SendPollMessage(ms: seq<Message>, messageId: string, providerFails: bool, now: int): (r: seq<Message>)
    ensures |r| == |ms|
    ensures forall i :: 0 <= i < |ms| ==> OnlySendColumns(ms[i], r[i]) && r[i].fileName == ms[i].fileName
    ensures forall i :: 0 <= i < |ms| ==>
              (r[i].sent <==> ms[i].sent || (ms[i].messageId == messageId && !providerFails))
              && (r[i].failed <==> ms[i].failed || (ms[i].messageId == messageId && providerFails))
    ensures forall i :: 0 <= i < |ms| ==>
              r[i].sentAt == (if ms[i].messageId == messageId && !providerFails then NullTime(now, true) else ms[i].sentAt)
              && r[i].failedAt == (if ms[i].messageId == messageId && providerFails then NullTime(now, true) else ms[i].failedAt)
  {
    RecordSendResult(ms, messageId, providerFails, now, None)
  }

  /** Text and poll sends record their outcome identically. */
  lemma TextAndPollRecordAlike(ms: seq<Message>, messageId: string, providerFails: bool, now: int)
    ensures SendTextMessage(ms, messageId, providerFails, now) == SendPollMessage(ms, messageId, providerFails, now)
  {
  }

  /** The reply context of a media request: `ContextInfo.StanzaId` and `.Participant`. */
  datatype ReplyTo = ReplyTo(stanzaId: Option<string>, participant: Option<string>)

  /** The quoted-message context attached to an outgoing message. */
  datatype Quote = Quote(stanzaId: string, participant: Option<string>)

  datatype SendError = DecodeError | UploadError | NoExtension | ProviderError

  /** What a media send hands to the provider. */
  datatype Payload = ImagePayload(caption: string, quote: Option<Quote>) | DocumentPayload(fileName: string, quote: Option<Quote>)

  /** A synchronous media send: its error (if any), the message rows after it
      and the payload offered to the provider; or a panic. */
  datatype SendResult = SendResult(err: Option<SendError>, messages: seq<Message>, sent: Option<Payload>) | SendPanicked

  /** `SendImageMessage` as written: a request with a reply context panics,
      because the context is stored through the message's nil text part. */
  function SendImageMessage(ms: seq<Message>, messageId: string, caption: string, reply: ReplyTo,
                            decodeFails: bool, uploadFails: bool, providerFails: bool, now: int): (r: SendResult)
    ensures decodeFails ==> r == SendResult(Some(DecodeError), ms, None)
    ensures !decodeFails && uploadFails ==> r == SendResult(Some(UploadError), ms, None)
    ensures r.SendResult? && r.sent.Some? ==>
              && r.messages == RecordSendResult(ms, messageId, providerFails, now, None)
              && (r.err.Some? <==> providerFails)
              && r.sent == Some(ImagePayload(caption, None))
    ensures !decodeFails && !uploadFails && reply.stanzaId.None? ==> r.SendResult? && r.sent.Some?
  {
    if decodeFails then SendResult(Some(DecodeError), ms, None)
    else if uploadFails then SendResult(Some(UploadError), ms, None)
    else if reply.stanzaId.Some? then SendPanicked
    else
      var payload := ImagePayload(caption, None);
      SendResult(if providerFails then Some(ProviderError) else None,
                 RecordSendResult(ms, messageId, providerFails, now, None), Some(payload))
  }

  /** Every image reply that gets past decoding and uploading panics. */
  lemma ImageReplyPanics(ms: seq<Message>, messageId: string, caption: string, stanzaId: string, participant: Option<string>, providerFails: bool, now: int)
    ensures SendImageMessage(ms, messageId, caption, ReplyTo(Some(stanzaId), participant), false, false, providerFails, now) == SendPanicked
  {
  }

  /** The quote a reply context asks for, if any. */
  function QuoteOf(reply: ReplyTo): (q: Option<Quote>)
    ensures q.Some? <==> reply.stanzaId.Some?
    ensures q.Some? ==> q.value.stanzaId == reply.stanzaId.value && q.value.participant == reply.participant
  {
    if reply.stanzaId.Some? then Some(Quote(reply.stanzaId.value, reply.participant)) else None
  }

  /** `SendImageMessage` as intended: the context goes on the image itself. */
  function SendImageMessageFixed(ms: seq<Message>, messageId: string, caption: string, reply: ReplyTo,
                                 decodeFails: bool, uploadFails: bool, providerFails: bool, now: int): (r: SendResult)
    ensures !r.SendPanicked?
    ensures decodeFails ==> r == SendResult(Some(DecodeError), ms, None)
    ensures !decodeFails && uploadFails ==> r == SendResult(Some(UploadError), ms, None)
    ensures !decodeFails && !uploadFails ==>
              r.sent == Some(ImagePayload(caption, QuoteOf(reply)))
              && r.messages == RecordSendResult(ms, messageId, providerFails, now, None)
              && (r.err.Some? <==> providerFails)
  {
    if decodeFails then SendResult(Some(DecodeError), ms, None)
    else if uploadFails then SendResult(Some(UploadError), ms, None)
    else
      SendResult(if providerFails then Some(ProviderError) else None,
                 RecordSendResult(ms, messageId, providerFails, now, None), Some(ImagePayload(caption, QuoteOf(reply))))
  }

  /** Where the written code does not panic, the fix does the same thing. */
  lemma ImageFixAgreesWithoutReply(ms: seq<Message>, messageId: string, caption: string, reply: ReplyTo,
                                   decodeFails: bool, uploadFails: bool, providerFails: bool, now: int)
    requires !SendImageMessage(ms, messageId, caption, reply, decodeFails, uploadFails, providerFails, now).SendPanicked?
    ensures SendImageMessageFixed(ms, messageId, caption, reply, decodeFails, uploadFails, providerFails, now)
            == SendImageMessage(ms, messageId, caption, reply, decodeFails, uploadFails, providerFails, now)
  {
  }

  /** The file name sent: the requested name followed by the last extension
      registered for the detected content type. */
  function ComposeFileName(fileName: string, extensions: seq<string>): (name: string)
    requires |extensions| > 0
    ensures IsPrefix(fileName, name) && name[|fileName|..] == extensions[|extensions| - 1]
  {
    fileName + extensions[|extensions| - 1]
  }

  /** `SendFileMessage` as written. `extensions` is the extension lookup's
      answer: None for its error, otherwise the (possibly empty) list. An empty
      list is indexed at -1 and panics, as does a reply context. */
  function SendFileMessage(ms: seq<Message>, messageId: string, fileName: string, reply: ReplyTo,
                           decodeFails: bool, uploadFails: bool, extensions: Option<seq<string>>,
                           providerFails: bool, now: int): (r: SendResult)
    ensures decodeFails ==> r == SendResult(Some(DecodeError), ms, None)
    ensures !decodeFails && uploadFails ==> r == SendResult(Some(UploadError), ms, None)
    ensures !decodeFails && !uploadFails && extensions.None? ==> r == SendResult(Some(NoExtension), ms, None)
    ensures r.SendResult? && r.sent.Some? ==>
              extensions.Some? && |extensions.value| > 0
              && var name := ComposeFileName(fileName, extensions.value);
                 r.sent == Some(DocumentPayload(name, None))
                 && r.messages == RecordSendResult(ms, messageId, providerFails, now, Some(name))
                 && (r.err.Some? <==> providerFails)
  {
    if decodeFails then SendResult(Some(DecodeError), ms, None)
    else if uploadFails then SendResult(Some(UploadError), ms, None)
    else if extensions.None? then SendResult(Some(NoExtension), ms, None)
    else if |extensions.value| == 0 then SendPanicked
    else
      var name := ComposeFileName(fileName, extensions.value);
      if reply.stanzaId.Some? then SendPanicked
      else
        SendResult(if providerFails then Some(ProviderError) else None,
                   RecordSendResult(ms, messageId, providerFails, now, Some(name)), Some(DocumentPayload(name, None)))
  }

  /** A content type with no registered extension panics instead of reporting
      "no extension detected". */
  lemma FileWithoutExtensionPanics(ms: seq<Message>, messageId: string, fileName: string, providerFails: bool, now: int)
    ensures SendFileMessage(ms, messageId, fileName, ReplyTo(None, None), false, false, Some([]), providerFails, now) == SendPanicked
  {
  }

  /** Every file reply with a known extension panics too. */
  lemma FileReplyPanics(ms: seq<Message>, messageId: string, fileName: string, stanzaId: string, participant: Option<string>,
                         extensions: seq<string>, providerFails: bool, now: int)
    requires |extensions| > 0
    ensures SendFileMessage(ms, messageId, fileName, ReplyTo(Some(stanzaId), participant), false, false, Some(extensions), providerFails, now) == SendPanicked
  {
  }

  /** `SendFileMessage` as intended: an empty extension list is the
      "no extension detected" error, and a reply context goes on the document. */
  function SendFileMessageFixed(ms: seq<Message>, messageId: string, fileName: string, reply: ReplyTo,
                                decodeFails: bool, uploadFails: bool, extensions: Option<seq<string>>,
                                providerFails: bool, now: int): (r: SendResult)
    ensures !r.SendPanicked?
    ensures decodeFails ==> r == SendResult(Some(DecodeError), ms, None)
    ensures !decodeFails && uploadFails ==> r == SendResult(Some(UploadError), ms, None)
    ensures !decodeFails && !uploadFails && (extensions.None? || |extensions.value| == 0) ==>
              r == SendResult(Some(NoExtension), ms, None)
    ensures !decodeFails && !uploadFails && extensions.Some? && |extensions.value| > 0 ==>
              var name := ComposeFileName(fileName, extensions.value);
              r.sent == Some(DocumentPayload(name, QuoteOf(reply)))
              && r.messages == RecordSendResult(ms, messageId, providerFails, now, Some(name))
              && (r.err.Some? <==> providerFails)
  {
    if decodeFails then SendResult(Some(DecodeError), ms, None)
    else if uploadFails then SendResult(Some(UploadError), ms, None)
    else if extensions.None? || |extensions.value| == 0 then SendResult(Some(NoExtension), ms, None)
    else
      var name := ComposeFileName(fileName, extensions.value);
      SendResult(if providerFails then Some(ProviderError) else None,
                 RecordSendResult(ms, messageId, providerFails, now, Some(name)), Some(DocumentPayload(name, QuoteOf(reply))))
  }

  /** Where the written code does not panic, the fix does the same thing. */
  lemma FileFixAgreesWhereDefined(ms: seq<Message>, messageId: string, fileName: string, reply: ReplyTo,
                                  decodeFails: bool, uploadFails: bool, extensions: Option<seq<string>>,
                                  providerFails: bool, now: int)
    requires !SendFileMessage(ms, messageId, fileName, reply, decodeFails, uploadFails, extensions, providerFails, now).SendPanicked?
    ensures SendFileMessageFixed(ms, messageId, fileName, reply, decodeFails, uploadFails, extensions, providerFails, now)
            == SendFileMessage(ms, messageId, fileName, reply, decodeFails, uploadFails, extensions, providerFails, now)
  {
  }

  /** `markTyping`'s pause in seconds, from `rand.Intn(10-1)`, which lies in [0, 9). */
  function TypingDelay(draw: int): (seconds: int)
    requires 0 <= draw < 10 - 1
    ensures 1 <= seconds <= 9
    ensures seconds - 1 == draw
  {
    draw + 1
  }

  /** Every whole number of seconds from 1 to 9 can occur. */
  lemma TypingDelayCoversRange(seconds: int)
    requires 1 <= seconds <= 9
    ensures exists draw :: 0 <= draw < 10 - 1 && TypingDelay(draw) == seconds
  {
    assert TypingDelay(seconds - 1) == seconds;
  }
}

=== FILE: pairing.dfy ===
/** `ConnectAndLogin` (pkg/wmeow/client.go): log in with stored credentials,
    or fold over the QR channel's events, saving the device's QR code as the
    events arrive. The library's `Connect`, `GetQRChannel` and the device
    saves are oracles: each is a flag saying whether it fails. */
module Pairing {
  import opened Common
  import opened Models
  import opened Sessions

  /** A QR channel item, by its `Event` name: "code", "timeout", "success",
      or any other name (the library's error items such as
      "err-client-outdated"). `OtherEvent` stands only for names other than
      the first three, which have their own constructors. */
  datatype QrEvent = Code(code: string) | Timeout | Success | OtherEvent(name: string)

  /** An event from the QR channel and whether the device save it triggers fails. */
  datatype QrStep = QrStep(event: QrEvent, saveFails: bool)

  datatype LoginError = QrChannelError | SaveError

  /** How `ConnectAndLogin` ends: it returns its (error, bool) pair, panics
      when `Connect` fails, or hangs on a kill signal nobody can take. */
  datatype Login = Returned(err: Option<LoginError>, flag: bool, state: State) | LoginPanicked | LoginHung

  /** Every row of device `id` with the given QR code, as a save writes it. */
  function SetQrCode(rows: seq<Device>, id: DeviceId, qr: NullString): (r: seq<Device>)
    ensures |r| == |rows|
    ensures forall i :: 0 <= i < |rows| ==> r[i] == if rows[i].id == id then rows[i].(qrCode := qr) else rows[i]
  {
    if |rows| == 0 then []
    else [if rows[0].id == id then rows[0].(qrCode := qr) else rows[0]] + SetQrCode(rows[1..], id, qr)
  }

  /** Setting a cleared code is what the teardown does to the same rows. */
  lemma SetClearedIsTeardownClear(rows: seq<Device>, id: DeviceId)
    ensures SetQrCode(rows, id, ClearedString) == ClearQrCodes(rows, {id})
  {
    assert forall i :: 0 <= i < |rows| ==> SetQrCode(rows, id, ClearedString)[i] == ClearQrCodes(rows, {id})[i];
  }

  /** A successful `Connect` marks the device's client, if it still has one, connected. */
  function MarkConnected(s: State, id: DeviceId): (t: State)
    ensures t.devices == s.devices && t.reg.kill == s.reg.kill && t.reg.watchers == s.reg.watchers
    ensures t.reg.clients.Keys == s.reg.clients.Keys
    ensures forall other :: other in s.reg.clients && other != id ==> t.reg.clients[other] == s.reg.clients[other]
    ensures id in s.reg.clients ==> t.reg.clients[id].connected
  {
    if id in s.reg.clients then s.(reg := s.reg.(clients := s.reg.clients[id := s.reg.clients[id].(connected := true)]))
    else s
  }

  /** Rows of other devices are untouched. */
  predicate OthersUnchanged(a: seq<Device>, b: seq<Device>, id: DeviceId) {
    |a| == |b| && forall i :: 0 <= i < |a| && a[i].id != id ==> b[i] == a[i]
  }

  /** The `for evt := range qrChan` loop for device `id`. */
  function QrFold(s: State, id: DeviceId, steps: seq<QrStep>): (r: Login)
    ensures !r.LoginPanicked?
    ensures r.Returned? ==> (r.err.None? <==> !r.flag) && (r.err.Some? ==> r.err.value == SaveError)
    ensures r.Returned? ==> OthersUnchanged(s.devices, r.state.devices, id)
    decreases |steps|
  {
    if |steps| == 0 then Returned(None, false, s)
    else
      var step := steps[0];
      match step.event
      case Code(c) =>
        if step.saveFails then Returned(Some(SaveError), true, s)
        else QrFold(s.(devices := SetQrCode(s.devices, id, NullString(c, true))), id, steps[1..])
      case Timeout =>
        if step.saveFails then Returned(Some(SaveError), true, s)
        else
          var cleared := s.(devices := SetQrCode(s.devices, id, ClearedString));
          var removed := cleared.(reg := cleared.reg.(clients := cleared.reg.clients - {id}));
          (match Signal(removed, id)
           case Blocked => LoginHung
           case Delivered(t) => QrFold(t, id, steps[1..]))
      case Success =>
        if step.saveFails then Returned(Some(SaveError), true, s)
        else QrFold(s.(devices := SetQrCode(s.devices, id, ClearedString)), id, steps[1..])
      case OtherEvent(_) => QrFold(s, id, steps[1..])
  }

  /** `ConnectAndLogin` for device `id`. */
  function ConnectAndLogin(s: State, id: DeviceId, hasStoreId: bool, connectFails: bool, qrChannelFails: bool, steps: seq<QrStep>): (r: Login)
    ensures hasStoreId ==> (r.LoginPanicked? <==> connectFails)
    ensures !hasStoreId && qrChannelFails ==> r == Returned(Some(QrChannelError), true, s)
    ensures r.Returned? && r.err.None? ==> (!r.flag <==> !hasStoreId)
    ensures hasStoreId && !connectFails ==> r == Returned(None, true, MarkConnected(s, id))
    ensures !hasStoreId && !qrChannelFails ==> (r.LoginPanicked? <==> connectFails)
    ensures !hasStoreId && !qrChannelFails && !connectFails ==> r == QrFold(MarkConnected(s, id), id, steps)
  {
    if hasStoreId then
      if connectFails then LoginPanicked else Returned(None, true, MarkConnected(s, id))
    else if qrChannelFails then Returned(Some(QrChannelError), true, s)
    else if connectFails then LoginPanicked
    else QrFold(MarkConnected(s, id), id, steps)
  }

  /** With stored credentials no QR event is read and no QR code is written. */
  lemma StoredCredentialsSkipQr(s: State, id: DeviceId, qrChannelFails: bool, a: seq<QrStep>, b: seq<QrStep>)
    ensures ConnectAndLogin(s, id, true, false, qrChannelFails, a) == ConnectAndLogin(s, id, true, false, qrChannelFails, b)
    ensures ConnectAndLogin(s, id, true, false, qrChannelFails, a) == Returned(None, true, MarkConnected(s, id))
    ensures ConnectAndLogin(s, id, true, false, qrChannelFails, a).state.devices == s.devices
  {
  }

  /** Running two stretches of events is running the first, then the second
      from where the first left off, unless the first already returned an
      error or stopped. */
  lemma {:induction false} QrFoldAppend(s: State, id: DeviceId, a: seq<QrStep>, b: seq<QrStep>)
    ensures QrFold(s, id, a + b) ==
              match QrFold(s, id, a)
              case Returned(None, false, t) => QrFold(t, id, b)
              case other => other
    decreases |a|
  {
    if |a| == 0 {
      assert a + b == b;
    } else {
      assert (a + b)[0] == a[0];
      assert (a + b)[1..] == a[1..] + b;
      var step := a[0];
      match step.event
      case Code(c) =>
        if !step.saveFails {
          QrFoldAppend(s.(devices := SetQrCode(s.devices, id, NullString(c, true))), id, a[1..], b);
        }
      case Timeout =>
        if !step.saveFails {
          var cleared := s.(devices := SetQrCode(s.devices, id, ClearedString));
          var removed := cleared.(reg := cleared.reg.(clients := cleared.reg.clients - {id}));
          if Signal(removed, id).Delivered? {
            QrFoldAppend(Signal(removed, id).state, id, a[1..], b);
          }
        }
      case Success =>
        if !step.saveFails {
          QrFoldAppend(s.(devices := SetQrCode(s.devices, id, ClearedString)), id, a[1..], b);
        }
      case OtherEvent(_) =>
        QrFoldAppend(s, id, a[1..], b);
    }
  }

  /** A failed save returns that error at once: later events are never read. */
  lemma SaveFailureStops(s: State, id: DeviceId, e: QrEvent, rest: seq<QrStep>)
    requires !e.OtherEvent?
    ensures QrFold(s, id, [QrStep(e, true)] + rest) == Returned(Some(SaveError), true, s)
  {
    assert ([QrStep(e, true)] + rest)[0] == QrStep(e, true);
  }

  /** Events that are neither code, timeout nor success change nothing. */
  lemma OtherEventInert(s: State, id: DeviceId, name: string, rest: seq<QrStep>)
    ensures QrFold(s, id, [QrStep(OtherEvent(name), false)] + rest) == QrFold(s, id, rest)
    ensures QrFold(s, id, [QrStep(OtherEvent(name), true)] + rest) == QrFold(s, id, rest)
  {
    assert ([QrStep(OtherEvent(name), false)] + rest)[1..] == rest;
    assert ([QrStep(OtherEvent(name), true)] + rest)[1..] == rest;
  }

  /** Only codes, each saved successfully. */
  predicate AllSavedCodes(steps: seq<QrStep>) {
    forall i :: 0 <= i < |steps| ==> steps[i].event.Code? && !steps[i].saveFails
  }

  /** After a run of codes the stored QR code is the last one, marked valid;
      the registry is as it was. */
  lemma {:induction false} LastCodeWins(s: State, id: DeviceId, steps: seq<QrStep>)
    requires |steps| > 0 && AllSavedCodes(steps)
    ensures var r := QrFold(s, id, steps);
            r.Returned? && r.err.None? && r.state.reg == s.reg
            && forall i :: 0 <= i < |s.devices| && s.devices[i].id == id ==>
                 r.state.devices[i].qrCode == NullString(steps[|steps| - 1].event.code, true)
    decreases |steps|
  {
    var next := s.(devices := SetQrCode(s.devices, id, NullString(steps[0].event.code, true)));
    if |steps| == 1 {
      assert steps[1..] == [];
    } else {
      assert AllSavedCodes(steps[1..]) by {
        forall i | 0 <= i < |steps[1..]| ensures steps[1..][i] == steps[i + 1] { }
      }
      LastCodeWins(next, id, steps[1..]);
    }
  }

  /** A timeout for a registered session clears the QR code, removes the
      client and, through the kill signal, its teardown; the kill key stays. */
  lemma TimeoutEndsSession(s: State, id: DeviceId, rest: seq<QrStep>)
    requires Valid(s.reg) && IsRegistered(s.reg, id)
    ensures var first := QrFold(s, id, [QrStep(Timeout, false)]);
            first.Returned? && first.err.None?
            && id !in first.state.reg.clients && id !in first.state.reg.watchers && id in first.state.reg.kill
            && first.state.devices == ClearQrCodes(s.devices, {id})
            && QrFold(s, id, [QrStep(Timeout, false)] + rest) == QrFold(first.state, id, rest)
  {
    var cleared := s.(devices := SetQrCode(s.devices, id, ClearedString));
    SetClearedIsTeardownClear(s.devices, id);
    SetClearedIsTeardownClear(cleared.devices, id);
    assert ClearQrCodes(ClearQrCodes(s.devices, {id}), {id}) == ClearQrCodes(s.devices, {id}) by {
      ClearQrCodesUnion(s.devices, {id}, {id});
      assert {id} + {id} == {id};
    }
    QrFoldAppend(s, id, [QrStep(Timeout, false)], rest);
  }

  /** A success clears the QR code and leaves the registry alone. */
  lemma SuccessClearsCodeOnly(s: State, id: DeviceId, rest: seq<QrStep>)
    ensures QrFold(s, id, [QrStep(Success, false)] + rest)
            == QrFold(State(s.reg, SetQrCode(s.devices, id, ClearedString)), id, rest)
  {
    assert ([QrStep(Success, false)] + rest)[1..] == rest;
  }

  /** Once the client entry is gone, no later event brings it back: a success
      after a timeout does not re-register the session. */
  lemma {:induction false} RemovedClientStaysRemoved(s: State, id: DeviceId, steps: seq<QrStep>)
    requires id !in s.reg.clients
    ensures QrFold(s, id, steps).Returned? ==> id !in QrFold(s, id, steps).state.reg.clients
    decreases |steps|
  {
    if |steps| > 0 {
      var step := steps[0];
      match step.event
      case Code(c) =>
        if !step.saveFails {
          RemovedClientStaysRemoved(s.(devices := SetQrCode(s.devices, id, NullString(c, true))), id, steps[1..]);
        }
      case Timeout =>
        if !step.saveFails {
          var cleared := s.(devices := SetQrCode(s.devices, id, ClearedString));
          var removed := cleared.(reg := cleared.reg.(clients := cleared.reg.clients - {id}));
          if Signal(removed, id).Delivered? {
            RemovedClientStaysRemoved(Signal(removed, id).state, id, steps[1..]);
          }
        }
      case Success =>
        if !step.saveFails {
          RemovedClientStaysRemoved(s.(devices := SetQrCode(s.devices, id, ClearedString)), id, steps[1..]);
        }
      case OtherEvent(_) =>
        RemovedClientStaysRemoved(s, id, steps[1..]);
    }
  }

  /** A stream that runs out without a failed save returns (nil, false). */
  lemma ExhaustedStreamReturnsFalse(s: State, id: DeviceId, steps: seq<QrStep>)
    requires forall i :: 0 <= i < |steps| ==> !steps[i].saveFails && !steps[i].event.Timeout?
    ensures QrFold(s, id, steps).Returned? && QrFold(s, id, steps).err.None? && !QrFold(s, id, steps).flag
  {
    ExhaustedStreamReturnsFalseHelper(s, id, steps);
  }

  lemma {:induction false} ExhaustedStreamReturnsFalseHelper(s: State, id: DeviceId, steps: seq<QrStep>)
    requires forall i :: 0 <= i < |steps| ==> !steps[i].saveFails && !steps[i].event.Timeout?
    ensures QrFold(s, id, steps).Returned? && QrFold(s, id, steps).err.None?
    decreases |steps|
  {
    if |steps| > 0 {
      assert forall i :: 0 <= i < |steps[1..]| ==> steps[1..][i] == steps[i + 1];
      match steps[0].event
      case Code(c) =>
        ExhaustedStreamReturnsFalseHelper(s.(devices := SetQrCode(s.devices, id, NullString(c, true))), id, steps[1..]);
      case Success =>
        ExhaustedStreamReturnsFalseHelper(s.(devices := SetQrCode(s.devices, id, ClearedString)), id, steps[1..]);
      case OtherEvent(_) =>
        ExhaustedStreamReturnsFalseHelper(s, id, steps[1..]);
    }
  }
}

=== FILE: phone.dfy ===
/** The controller-side phone-number helpers: the three copies of
    `stripPhoneNumber` (message, file and pollmessage packages), the request
    step that strips before validating, and the contact package's `sanitize`.
    `stripPhoneNumber` slices the first byte, so an empty number panics. */
module PhoneNumbers {
  import opened Strings

  /** What `stripPhoneNumber` does: returns a number, or panics on
      `phoneNumber[0:1]` when the number is empty. */
  datatype Stripped = Stripped(phone: string) | StripPanicked

  predicate StartsWithPlusOrZero(phone: string) {
    |phone| > 0 && (phone[0] == '+' || phone[0] == '0')
  }

  /** cmd/api/controllers/message/helper.go */
  function MessageStripPhoneNumber(phone: string): (r: Stripped)
    ensures r.StripPanicked? <==> phone == ""
    ensures r.Stripped? ==> IsSuffix(r.phone, phone)
    ensures r.Stripped? ==> (|r.phone| == |phone| - 1 <==> StartsWithPlusOrZero(phone))
    ensures phone != "" && !StartsWithPlusOrZero(phone) ==> r == Stripped(phone)
  {
    if |phone| < 1 then StripPanicked
    else
      var first := phone[0..1];
      if first == "+" || first == "0" then Stripped(phone[1..]) else Stripped(phone)
  }

  /** cmd/api/controllers/file/helper.go */
  function FileStripPhoneNumber(phone: string): (r: Stripped)
    ensures r.StripPanicked? <==> phone == ""
    ensures r.Stripped? ==> IsSuffix(r.phone, phone)
    ensures r.Stripped? ==> (|r.phone| == |phone| - 1 <==> StartsWithPlusOrZero(phone))
    ensures phone != "" && !StartsWithPlusOrZero(phone) ==> r == Stripped(phone)
  {
    if |phone| < 1 then StripPanicked
    else
      var first := phone[0..1];
      if first == "+" || first == "0" then Stripped(phone[1..]) else Stripped(phone)
  }

  /** cmd/api/controllers/pollmessage/helper.go */
  function PollMessageStripPhoneNumber(phone: string): (r: Stripped)
    ensures r.StripPanicked? <==> phone == ""
    ensures r.Stripped? ==> IsSuffix(r.phone, phone)
    ensures r.Stripped? ==> (|r.phone| == |phone| - 1 <==> StartsWithPlusOrZero(phone))
    ensures phone != "" && !StartsWithPlusOrZero(phone) ==> r == Stripped(phone)
  {
    if |phone| < 1 then StripPanicked
    else
      var first := phone[0..1];
      if first == "+" || first == "0" then Stripped(phone[1..]) else Stripped(phone)
  }

  /** The three copies behave identically on every input, the panic included. */
  lemma StripCopiesAgree(phone: string)
    ensures FileStripPhoneNumber(phone) == MessageStripPhoneNumber(phone)
    ensures PollMessageStripPhoneNumber(phone) == MessageStripPhoneNumber(phone)
  {
  }

  /** Only one character is removed: "+0123" keeps its zero. */
  lemma StripRemovesOnlyOne(rest: string)
    ensures MessageStripPhoneNumber("+0" + rest) == Stripped("0" + rest)
  {
    assert ("+0" + rest)[1..] == "0" + rest;
  }

  /** Stripping is not idempotent: "00123" loses one zero per application. */
  lemma StripNotIdempotent()
    ensures FileStripPhoneNumber("00123") == Stripped("0123")
    ensures FileStripPhoneNumber(FileStripPhoneNumber("00123").phone) == Stripped("123")
  {
    assert "00123"[1..] == "0123";
    assert "0123"[1..] == "123";
  }

  /** The validator tag `required,numeric,min=5,max=20` on the phone or
      destination field. `numeric` is the validator library's own check,
      passed in; the lengths count characters. */
  predicate PassesPhoneValidator(phone: string, numeric: string -> bool) {
    phone != "" && numeric(phone) && 5 <= |phone| <= 20
  }

  /** How a send request's phone field ends up: accepted as the number to
      send to, rejected with 422 by the validator, or a panic. */
  datatype PhoneCheck = PhoneAccepted(phone: string) | PhoneRejected | PhonePanicked

  /** The send controllers as written: the decoded field (`""` when the JSON
      body leaves it out) goes through `stripPhoneNumber` first and is
      validated afterwards, so the validator never sees an empty field. */
  function StripThenValidate(phone: string, numeric: string -> bool): (r: PhoneCheck)
    ensures r.PhonePanicked? <==> phone == ""
    ensures r.PhoneAccepted? <==>
              phone != "" && PassesPhoneValidator(MessageStripPhoneNumber(phone).phone, numeric)
    ensures r.PhoneAccepted? ==> r.phone == MessageStripPhoneNumber(phone).phone
  {
    match MessageStripPhoneNumber(phone)
    case StripPanicked => PhonePanicked
    case Stripped(p) => if PassesPhoneValidator(p, numeric) then PhoneAccepted(p) else PhoneRejected
  }

  /** A request without a phone number panics instead of getting the 422 the
      `required` tag promises. */
  lemma MissingPhonePanics(numeric: string -> bool)
    ensures StripThenValidate("", numeric) == PhonePanicked
    ensures !PassesPhoneValidator("", numeric)
  {
  }

  /** `stripPhoneNumber` with an empty-number guard: an empty number is left
      for the validator to reject. */
  function GuardedStripPhoneNumber(phone: string): (r: string)
    ensures phone == "" ==> r == ""
    ensures phone != "" ==> Stripped(r) == MessageStripPhoneNumber(phone)
  {
    if phone == "" then phone else MessageStripPhoneNumber(phone).phone
  }

  /** The corrected step: strip with the guard, then validate. */
  function StripThenValidateFixed(phone: string, numeric: string -> bool): (r: PhoneCheck)
    ensures !r.PhonePanicked?
    ensures phone == "" ==> r == PhoneRejected
    ensures r.PhoneAccepted? <==> PassesPhoneValidator(GuardedStripPhoneNumber(phone), numeric)
  {
    var p := GuardedStripPhoneNumber(phone);
    if PassesPhoneValidator(p, numeric) then PhoneAccepted(p) else PhoneRejected
  }

  /** The correction changes nothing where the original does not panic. */
  lemma PhoneFixAgreesWithoutPanic(phone: string, numeric: string -> bool)
    requires !StripThenValidate(phone, numeric).PhonePanicked?
    ensures StripThenValidateFixed(phone, numeric) == StripThenValidate(phone, numeric)
  {
  }

  /** `sanitize`: drops one leading '0' (never a '+'), then cuts at the earliest
      '@', '.' or ':'. */
  function Sanitize(phone: string): (r: string)
    requires |phone| > 0
    ensures NoJidSeparator(r)
    ensures var p := if phone[0] == '0' then phone[1..] else phone;
            IsPrefix(r, p) && (|r| == |p| || IsJidSeparator(p[|r|]))
    ensures NoJidSeparator(phone) && phone[0] != '0' ==> r == phone
  {
    var p := if phone[0] == '0' then phone[1..] else phone;
    CutAtSeparators(p)
  }

  /** A leading '+' survives sanitizing, unlike in stripPhoneNumber. */
  lemma SanitizeKeepsPlus(digits: string)
    requires AllDigits(digits)
    ensures Sanitize("+" + digits) == "+" + digits
  {
    var s := "+" + digits;
    assert forall i :: 1 <= i < |s| ==> s[i] == digits[i - 1];
  }
}

=== FILE: polldetail.dfy ===
/** A poll option row and its creation hook (cmd/models/poll_detail.go). The
    ULID generator and SHA-256 stay abstract: a fresh identifier is an input,
    and the hash is any function from the option text to 32 bytes. */
module PollDetails {
  import opened Common
  import opened Hex

  /** A ULID in its 26-character text form. */
  type Ulid = s: string | |s| == 26 witness "00000000000000000000000000"

  /** A SHA-256 digest. */
  type Digest = d: seq<byte> | |d| == 32 witness seq(32, _ => 0 as byte)

  datatype PollDetail = PollDetail(
    id: string,
    pollId: string,
    option: string,
    optionSha256: string,
    createdAt: int,
    updatedAt: int)

  /** The stored form of an option's hash: `fmt.Sprintf("%x", sha256.Sum256(option))`. */
  function OptionHash(option: string, sha256: string -> Digest): (h: string)
    ensures |h| == 64 && IsLowerHex(h)
    ensures DecodeHex(h) == Some(sha256(option))
  {
    DecodeHexLower(sha256(option));
    HexLower(sha256(option))
  }

  /** `BeforeCreate`: fills the id and the hash only where they are empty. */
  function BeforeCreate(p: PollDetail, freshId: Ulid, sha256: string -> Digest): (q: PollDetail)
    ensures p.id != "" ==> q.id == p.id
    ensures p.id == "" ==> q.id == freshId
    ensures p.optionSha256 != "" ==> q.optionSha256 == p.optionSha256
    ensures p.optionSha256 == "" ==> |q.optionSha256| == 64 && DecodeHex(q.optionSha256) == Some(sha256(p.option))
    ensures q.option == p.option && q.pollId == p.pollId
    ensures q.createdAt == p.createdAt && q.updatedAt == p.updatedAt
    ensures q.id != "" && q.optionSha256 != ""
  {
    var withId := if p.id == "" then p.(id := freshId) else p;
    if p.optionSha256 == "" then withId.(optionSha256 := OptionHash(p.option, sha256)) else withId
  }

  /** Running the hook again changes nothing, whatever fresh id it is offered. */
  lemma BeforeCreateIdempotent(p: PollDetail, id1: Ulid, id2: Ulid, sha256: string -> Digest)
    ensures BeforeCreate(BeforeCreate(p, id1, sha256), id2, sha256) == BeforeCreate(p, id1, sha256)
  {
  }

  /** Two options get the same stored hash only if SHA-256 collides on them. */
  lemma OptionHashInjective(a: string, b: string, sha256: string -> Digest)
    requires OptionHash(a, sha256) == OptionHash(b, sha256)
    ensures sha256(a) == sha256(b)
  {
    HexLowerInjective(sha256(a), sha256(b));
  }

  datatype PollDetailDTO = PollDetailDTO(id: string, pollId: string, option: string, createdAt: int, updatedAt: int)

  /** `ToResponseDTO`: every field but the hash. */
  function ToResponseDTO(p: PollDetail): (d: PollDetailDTO)
    ensures d.id == p.id && d.pollId == p.pollId && d.option == p.option
    ensures d.createdAt == p.createdAt && d.updatedAt == p.updatedAt
  {
    PollDetailDTO(p.id, p.pollId, p.option, p.createdAt, p.updatedAt)
  }

  /** The response omits the hash: rows differing only there answer alike,
      and the response determines every other field. */
  lemma ToResponseDTOOmitsHash(p: PollDetail, q: PollDetail)
    ensures p.(optionSha256 := q.optionSha256) == q <==> ToResponseDTO(p) == ToResponseDTO(q)
  {
  }
}

=== FILE: queue.dfy ===
/** The legacy single-device send queue (pkg/queues/queue.go) and the
    application loop that drains it (pkg/application/application.go). The list
    is a sequence with its front at index 0; the engine's send is an oracle. */
module LegacyQueue {
  import opened Models
  import EventHandling
  import PollDetails

  /** A message waiting in the queue. */
  datatype PendingMessage = PendingMessage(message: string, to: string, messageId: string)

  type Queue = seq<PendingMessage>

  /** `InitQueue`: a new, empty list. */
  function InitQueue(): (q: Queue)
    ensures |q| == 0
  {
    []
  }

  /** `Add`: push at the back. */
  function Add(q: Queue, m: PendingMessage): (r: Queue)
    ensures |r| == |q| + 1 && r[|q|] == m
    ensures r[..|q|] == q
  {
    q + [m]
  }

  /** The state `SendMeow` acts on: the queue and the message table. */
  datatype Sender = Sender(queue: Queue, messages: seq<Message>)

  /** `SendMeow`: take the front off, send it; on error push it back at the
      end, otherwise mark its row sent (the flag only). */
  function SendMeow(s: Sender, sendFails: bool): (r: Sender)
    ensures |s.queue| == 0 ==> r == s
    ensures |s.queue| > 0 && sendFails ==>
              r.messages == s.messages && |r.queue| == |s.queue|
              && r.queue[..|s.queue| - 1] == s.queue[1..] && r.queue[|s.queue| - 1] == s.queue[0]
    ensures |s.queue| > 0 && !sendFails ==>
              r.queue == s.queue[1..] && r.messages == UpdateWhere(s.messages, s.queue[0].messageId, MarkSentFlag)
  {
    if |s.queue| == 0 then s
    else
      var front := s.queue[0];
      var rest := s.queue[1..];
      if sendFails then Sender(Add(rest, front), s.messages)
      else Sender(rest, UpdateWhere(s.messages, front.messageId, MarkSentFlag))
  }

  /** A failed send keeps every message queued: the queue is rotated by one. */
  lemma FailedSendRotates(s: Sender)
    requires |s.queue| > 0
    ensures multiset(SendMeow(s, true).queue) == multiset(s.queue)
  {
    var r := SendMeow(s, true).queue;
    assert r == s.queue[1..] + [s.queue[0]];
    assert s.queue == [s.queue[0]] + s.queue[1..];
  }

  /** `RunQueue`: a run of ticks, each sending once with the given outcome;
      returns the final state and the messages delivered, in delivery order.
      No message is lost or duplicated: what is still queued and what was
      delivered together are what was queued at the start. */
  function Run(s: Sender, fails: seq<bool>): (r: (Sender, seq<PendingMessage>))
    ensures |r.1| <= |fails|
    ensures multiset(r.0.queue) + multiset(r.1) == multiset(s.queue)
    decreases |fails|
  {
    if |fails| == 0 then (s, [])
    else
      var next := SendMeow(s, fails[0]);
      var delivered := if |s.queue| > 0 && !fails[0] then [s.queue[0]] else [];
      var rest := Run(next, fails[1..]);
      assert |s.queue| > 0 ==> s.queue == [s.queue[0]] + s.queue[1..];
      assert multiset(next.queue) + multiset(delivered) == multiset(s.queue) by {
        if |s.queue| > 0 && fails[0] {
          assert next.queue == s.queue[1..] + [s.queue[0]];
        }
      }
      (rest.0, delivered + rest.1)
  }

  /** Without failures, messages are delivered first in, first out. */
  lemma {:induction false} RunDeliversInOrder(s: Sender, fails: seq<bool>)
    requires |fails| <= |s.queue| && forall i :: 0 <= i < |fails| ==> !fails[i]
    ensures Run(s, fails).1 == s.queue[..|fails|]
    ensures Run(s, fails).0.queue == s.queue[|fails|..]
    decreases |fails|
  {
    if |fails| > 0 {
      var next := SendMeow(s, fails[0]);
      RunDeliversInOrder(next, fails[1..]);
      assert next.queue == s.queue[1..];
      assert s.queue[..|fails|] == [s.queue[0]] + s.queue[1..][..|fails| - 1];
      assert s.queue[1..][|fails| - 1..] == s.queue[|fails|..];
    }
  }

  /** Adding a batch one message at a time, as the loading loop does. */
  function AddAll(q: Queue, ms: seq<PendingMessage>): (r: Queue)
    decreases |ms|
  {
    if |ms| == 0 then q else AddAll(Add(q, ms[0]), ms[1..])
  }

  /** Adding one by one appends the batch in order behind what was queued. */
  lemma {:induction false} AddAllAppends(q: Queue, ms: seq<PendingMessage>)
    ensures AddAll(q, ms) == q + ms
    decreases |ms|
  {
    if |ms| > 0 {
      AddAllAppends(Add(q, ms[0]), ms[1..]);
      assert q + [ms[0]] + ms[1..] == q + ms;
    }
  }

  /** The queue entry for a stored message. */
  function ToPending(m: Message): (p: PendingMessage)
    ensures p.to == m.destination && p.messageId == m.messageId && p.message == m.body
  {
    PendingMessage(m.body, m.destination, m.messageId)
  }

  /** The rows `LoadQueue` selects: not yet sent, of this account. */
  predicate Pending(m: Message, jid: string) {
    !m.sent && m.jid == jid
  }

  /** `LoadQueue`'s selection, in query order. */
  function LoadQueue(ms: seq<Message>, jid: string): (q: Queue)
    ensures |q| <= |ms|
  {
    if |ms| == 0 then []
    else
      var rest := LoadQueue(ms[1..], jid);
      if Pending(ms[0], jid) then [ToPending(ms[0])] + rest else rest
  }

  /** Only pending rows are loaded. */
  lemma {:induction false} LoadQueueSound(ms: seq<Message>, jid: string, j: nat)
    requires j < |LoadQueue(ms, jid)|
    ensures exists i :: 0 <= i < |ms| && Pending(ms[i], jid) && LoadQueue(ms, jid)[j] == ToPending(ms[i])
    decreases |ms|
  {
    var rest := LoadQueue(ms[1..], jid);
    if Pending(ms[0], jid) && j == 0 {
      assert LoadQueue(ms, jid)[0] == ToPending(ms[0]);
    } else {
      var j' := if Pending(ms[0], jid) then j - 1 else j;
      assert LoadQueue(ms, jid)[j] == rest[j'];
      LoadQueueSound(ms[1..], jid, j');
      var i :| 0 <= i < |ms[1..]| && Pending(ms[1..][i], jid) && rest[j'] == ToPending(ms[1..][i]);
      assert ms[1..][i] == ms[i + 1];
    }
  }

  /** Every pending row is loaded. */
  lemma {:induction false} LoadQueueComplete(ms: seq<Message>, jid: string, i: nat)
    requires i < |ms| && Pending(ms[i], jid)
    ensures ToPending(ms[i]) in LoadQueue(ms, jid)
    decreases |ms|
  {
    if i > 0 {
      LoadQueueComplete(ms[1..], jid, i - 1);
      assert ms[1..][i - 1] == ms[i];
    }
  }

  /** Loading keeps query order: the selection of a concatenation is the
      concatenation of the selections. */
  lemma {:induction false} LoadQueueKeepsOrder(a: seq<Message>, b: seq<Message>, jid: string)
    ensures LoadQueue(a + b, jid) == LoadQueue(a, jid) + LoadQueue(b, jid)
    decreases |a|
  {
    if |a| == 0 {
      assert a + b == b;
    } else {
      LoadQueueKeepsOrder(a[1..], b, jid);
      assert (a + b)[0] == a[0];
      assert (a + b)[1..] == a[1..] + b;
    }
  }

  /** `AddReadEventHandler`: a read receipt sets the read flag of every listed
      message (not its time); every other event is ignored. */
  function AddReadEventHandler(ms: seq<Message>, e: EventHandling.Event): (r: seq<Message>)
    ensures !(e.Receipt? && e.kind == EventHandling.ReadReceipt) ==> r == ms
    ensures |r| == |ms|
    ensures e.Receipt? && e.kind == EventHandling.ReadReceipt ==>
              forall i :: 0 <= i < |ms| ==>
                (ms[i].messageId in e.messageIds ==> r[i] == ms[i].(read := true))
                && (ms[i].messageId !in e.messageIds ==> r[i] == ms[i])
  {
    if e.Receipt? && e.kind == EventHandling.ReadReceipt then EventHandling.UpdateEach(ms, e.messageIds, MarkReadFlag)
    else ms
  }

  /** The application's handler and the session handler agree on which
      messages are read after a read receipt; only the session handler
      records when. */
  lemma ReadFlagsAgree(st: EventHandling.Store, k: nat, pushName: string, ids: seq<string>, timestamp: int,
                       historyId: PollDetails.Ulid, faults: EventHandling.VoteFaults, i: nat)
    requires k < |st.session.devices| && i < |st.messages|
    ensures var e := EventHandling.Receipt(EventHandling.ReadReceipt, ids, timestamp);
            var h := EventHandling.HandleEvent(st, k, pushName, e, historyId, faults);
            h.Handled? && AddReadEventHandler(st.messages, e)[i].read == h.store.messages[i].read
  {
    EventHandling.ReadReceiptMarksOnce(st, k, pushName, ids, timestamp, historyId, faults);
    ReadFlagAgrees(st.messages, ids, timestamp, i);
  }

  /** Per row, the flag-only update and the timed update set the same read flag. */
  lemma ReadFlagAgrees(ms: seq<Message>, ids: seq<string>, timestamp: int, i: nat)
    requires i < |ms|
    ensures AddReadEventHandler(ms, EventHandling.Receipt(EventHandling.ReadReceipt, ids, timestamp))[i].read
            == EventHandling.UpdateEach(ms, ids, MarkRead(timestamp))[i].read
  {
  }
}

=== FILE: registry.dfy ===
/** The session registry of pkg/wmeow/whatsmeow.go: the client table
    (`ClientPointer`), the per-device kill channels (`KillChannel`, each with
    room for one signal) and the teardown goroutine waiting on each channel.
    Goroutines become steps: a teardown runs as soon as its signal is sent.
    A device's in-memory record and its database row are the same value here. */
module Sessions {
  import opened Common
  import opened Strings
  import opened Models

  /** What a session knows about its library client. */
  datatype Client = Client(connected: bool, loggedIn: bool, hasStoreId: bool, subscriptions: seq<string>)

  datatype Registry = Registry(
    clients: map<DeviceId, Client>,
    kill: map<DeviceId, nat>,
    watchers: set<DeviceId>)

  /** The registry with the device table it writes through. */
  datatype State = State(reg: Registry, devices: seq<Device>)

  /** Room in each kill channel. */
  const KillCapacity: nat := 1

  /** Every client has a waiting teardown, every teardown waits on an
      existing channel, and a waiting teardown leaves no signal buffered. */
  predicate Valid(r: Registry) {
    && r.clients.Keys <= r.watchers
    && r.watchers <= r.kill.Keys
    && (forall id :: id in r.kill ==> r.kill[id] <= KillCapacity)
    && (forall id :: id in r.watchers ==> r.kill[id] == 0)
  }

  /** Everything the registry holds for one device. */
  function Entry(r: Registry, id: DeviceId): (Option<Client>, Option<nat>, bool) {
    (if id in r.clients then Some(r.clients[id]) else None,
     if id in r.kill then Some(r.kill[id]) else None,
     id in r.watchers)
  }

  /** `isConnected`: a client exists and reports a live connection. */
  function IsConnected(r: Registry, id: DeviceId): (b: bool)
    ensures b <==> Entry(r, id).0.Some? && Entry(r, id).0.value.connected
  {
    id in r.clients && r.clients[id].connected
  }

  datatype StartResult = StartResult(state: State, failed: bool)

  /** `StartClient`. `jid` is the device's stored JID text ("" if it never
      paired); for a non-empty one the session store is looked up, and
      `lookupFails` says whether that lookup errs. */
  function StartClient(s: State, device: Device, jid: string, subscriptions: seq<string>, lookupFails: bool): (r: StartResult)
    ensures IsConnected(s.reg, device.id) ==> r == StartResult(s, false)
    ensures !IsConnected(s.reg, device.id) && jid != "" && lookupFails ==> r == StartResult(s, true)
    ensures r.failed ==> r.state == s
    ensures r.state.devices == s.devices
    ensures forall id :: id != device.id ==> Entry(r.state.reg, id) == Entry(s.reg, id)
    ensures !r.failed ==> device.id in r.state.reg.clients
    ensures !r.failed && !IsConnected(s.reg, device.id) ==>
              Entry(r.state.reg, device.id) == (Some(Client(false, false, jid != "", subscriptions)), Some(0), true)
  {
    if IsConnected(s.reg, device.id) then StartResult(s, false)
    else if jid != "" && lookupFails then StartResult(s, true)
    else
      var client := Client(false, false, jid != "", subscriptions);
      var reg := Registry(
        s.reg.clients[device.id := client],
        s.reg.kill[device.id := 0],
        s.reg.watchers + {device.id});
      StartResult(State(reg, s.devices), false)
  }

  /** A device with a client, a kill channel and a teardown waiting on it. */
  predicate IsRegistered(r: Registry, id: DeviceId) {
    id in r.clients && id in r.kill && id in r.watchers
  }

  lemma StartClientKeepsValid(s: State, device: Device, jid: string, subscriptions: seq<string>, lookupFails: bool)
    requires Valid(s.reg)
    ensures Valid(StartClient(s, device, jid, subscriptions, lookupFails).state.reg)
  {
  }

  /** Starting a device whose client is not connected replaces its entry and
      gives it a fresh, empty kill channel. */
  lemma StartClientOverwritesStale(s: State, device: Device, subscriptions: seq<string>)
    requires device.id in s.reg.clients && !s.reg.clients[device.id].connected
    requires device.id in s.reg.kill && s.reg.kill[device.id] == KillCapacity
    ensures var r := StartClient(s, device, "", subscriptions, false);
            !r.failed && r.state.reg.kill[device.id] == 0 && r.state.reg.clients[device.id].subscriptions == subscriptions
  {
  }

  /** Each row with the given id, with its QR code cleared. */
  function ClearQrCodes(rows: seq<Device>, ids: set<DeviceId>): (r: seq<Device>)
    ensures |r| == |rows|
    ensures forall i :: 0 <= i < |rows| ==>
              r[i] == if rows[i].id in ids then rows[i].(qrCode := ClearedString) else rows[i]
  {
    if |rows| == 0 then []
    else [if rows[0].id in ids then rows[0].(qrCode := ClearedString) else rows[0]] + ClearQrCodes(rows[1..], ids)
  }

  /** Clearing in two rounds is clearing once for both sets. */
  lemma ClearQrCodesUnion(rows: seq<Device>, a: set<DeviceId>, b: set<DeviceId>)
    ensures ClearQrCodes(ClearQrCodes(rows, a), b) == ClearQrCodes(rows, a + b)
  {
    var lhs := ClearQrCodes(ClearQrCodes(rows, a), b);
    var rhs := ClearQrCodes(rows, a + b);
    assert forall i :: 0 <= i < |rows| ==> lhs[i] == rhs[i];
  }

  /** The teardown goroutine after its signal: the QR code is cleared and saved,
      the client disconnected and removed; the kill channel stays. */
  function Teardown(s: State, id: DeviceId): (t: State)
    ensures t.devices == ClearQrCodes(s.devices, {id})
    ensures id !in t.reg.clients && id !in t.reg.watchers
    ensures t.reg.kill == s.reg.kill
    ensures forall other :: other != id ==> Entry(t.reg, other) == Entry(s.reg, other)
  {
    State(Registry(s.reg.clients - {id}, s.reg.kill, s.reg.watchers - {id}), ClearQrCodes(s.devices, {id}))
  }

  /** What sending one signal on a kill channel does. */
  datatype SignalOutcome = Blocked | Delivered(state: State)

  /** `KillChannel[id] <- true`. A missing key is a nil channel and a full
      channel with nobody waiting never drains: both block the sender forever. */
  function Signal(s: State, id: DeviceId): (o: SignalOutcome)
    ensures o.Blocked? <==> id !in s.reg.kill || (id !in s.reg.watchers && s.reg.kill[id] >= KillCapacity)
    ensures o.Delivered? && id in s.reg.watchers ==> o.state == Teardown(s, id)
    ensures o.Delivered? && id !in s.reg.watchers ==>
              o.state.devices == s.devices && o.state.reg.clients == s.reg.clients
              && o.state.reg.watchers == s.reg.watchers && o.state.reg.kill == s.reg.kill[id := s.reg.kill[id] + 1]
  {
    if id !in s.reg.kill then Blocked
    else if id in s.reg.watchers then Delivered(Teardown(s, id))
    else if s.reg.kill[id] < KillCapacity then
      Delivered(s.(reg := s.reg.(kill := s.reg.kill[id := s.reg.kill[id] + 1])))
    else Blocked
  }

  lemma SignalKeepsValid(s: State, id: DeviceId)
    requires Valid(s.reg)
    ensures Signal(s, id).Delivered? ==> Valid(Signal(s, id).state.reg)
  {
  }

  /** A registered session is torn down by one signal; a second one is only
      buffered, and a third blocks. */
  lemma SignalTwiceThenBlocks(s: State, id: DeviceId)
    requires Valid(s.reg) && IsRegistered(s.reg, id)
    ensures Signal(s, id).Delivered?
    ensures var t := Signal(s, id).state;
            !IsRegistered(t.reg, id) && Signal(t, id).Delivered?
            && Signal(Signal(t, id).state, id).Blocked?
  {
  }

  /** A full kill channel nobody waits on. */
  predicate Stuck(r: Registry, id: DeviceId) {
    id in r.kill && id !in r.watchers && r.kill[id] >= KillCapacity
  }

  /** A list of ids that names every key of `keys` exactly once. */
  predicate Enumerates(order: seq<DeviceId>, keys: set<DeviceId>) {
    && (forall i, j :: 0 <= i < j < |order| ==> order[i] != order[j])
    && (forall i :: 0 <= i < |order| ==> order[i] in keys)
    && (forall k :: k in keys ==> k in order)
  }

  /** The state `Shutdown` has reached from `s` once the keys in `done` were signalled. */
  predicate ShutdownProgress(s: State, cur: State, done: set<DeviceId>) {
    && cur.reg.kill.Keys == s.reg.kill.Keys
    && (forall k :: k in done ==> !Stuck(s.reg, k))
    && (forall k :: k in s.reg.kill ==>
          cur.reg.kill[k] == if k in done && k !in s.reg.watchers then s.reg.kill[k] + 1 else s.reg.kill[k])
    && cur.reg.clients.Keys == s.reg.clients.Keys - done
    && cur.reg.watchers == s.reg.watchers - done
    && cur.devices == ClearQrCodes(s.devices, s.reg.watchers * done)
  }

  /** One more signal either blocks on a stuck channel or extends the progress. */
  lemma ShutdownStep(s: State, cur: State, done: set<DeviceId>, k: DeviceId)
    requires Valid(s.reg) && ShutdownProgress(s, cur, done) && k in s.reg.kill && k !in done
    ensures Signal(cur, k).Blocked? <==> Stuck(s.reg, k)
    ensures Signal(cur, k).Delivered? ==> ShutdownProgress(s, Signal(cur, k).state, done + {k})
  {
    if k in s.reg.watchers {
      ShutdownStepWatched(s, cur, done, k);
    } else {
      ShutdownStepIdle(s, cur, done, k);
    }
  }

  /** A waiting teardown takes the signal and ends its session. */
  lemma ShutdownStepWatched(s: State, cur: State, done: set<DeviceId>, k: DeviceId)
    requires Valid(s.reg) && ShutdownProgress(s, cur, done) && k in s.reg.watchers && k !in done
    ensures Signal(cur, k) == Delivered(Teardown(cur, k))
    ensures ShutdownProgress(s, Teardown(cur, k), done + {k})
  {
    ClearQrCodesUnion(s.devices, s.reg.watchers * done, {k});
    assert s.reg.watchers * done + {k} == s.reg.watchers * (done + {k});
  }

  /** An idle channel buffers the signal, or blocks when it is already full. */
  lemma ShutdownStepIdle(s: State, cur: State, done: set<DeviceId>, k: DeviceId)
    requires Valid(s.reg) && ShutdownProgress(s, cur, done) && k in s.reg.kill && k !in s.reg.watchers && k !in done
    ensures Signal(cur, k).Blocked? <==> Stuck(s.reg, k)
    ensures Signal(cur, k).Delivered? ==> ShutdownProgress(s, Signal(cur, k).state, done + {k})
  {
    assert s.reg.watchers * done == s.reg.watchers * (done + {k});
  }

  /** `Shutdown`: one signal on every kill channel, visiting the keys in
      `order` (Go leaves map iteration order unspecified). It blocks exactly
      when some channel is already full with nobody waiting; otherwise every
      session is torn down and every idle channel holds one signal. */
  method Shutdown(s: State, order: seq<DeviceId>) returns (o: SignalOutcome)
    requires Valid(s.reg) && Enumerates(order, s.reg.kill.Keys)
    ensures o.Blocked? <==> exists id :: Stuck(s.reg, id)
    ensures o.Delivered? ==> o.state.reg.clients == map[] && o.state.reg.watchers == {}
    ensures o.Delivered? ==> o.state.reg.kill.Keys == s.reg.kill.Keys
    ensures o.Delivered? ==> forall id :: id in s.reg.kill ==>
              o.state.reg.kill[id] == if id in s.reg.watchers then 0 else s.reg.kill[id] + 1
    ensures o.Delivered? ==> o.state.devices == ClearQrCodes(s.devices, s.reg.watchers)
  {
    var cur := s;
    var n := 0;
    assert ClearQrCodes(s.devices, {}) == s.devices;
    while n < |order|
      invariant n <= |order|
      invariant ShutdownProgress(s, cur, Done(order, n))
    {
      var k := order[n];
      DoneStep(order, n);
      ShutdownStep(s, cur, Done(order, n), k);
      var out := Signal(cur, k);
      if out.Blocked? {
        return Blocked;
      }
      cur := out.state;
      n := n + 1;
    }
    ShutdownFinish(s, cur, order);
    return Delivered(cur);
  }

  /** Visiting one more position adds its key. */
  lemma DoneStep(order: seq<DeviceId>, n: nat)
    requires n < |order|
    ensures Done(order, n + 1) == Done(order, n) + {order[n]}
  {
  }

  /** Once every key has been signalled, nothing was stuck and every session is gone. */
  lemma ShutdownFinish(s: State, cur: State, order: seq<DeviceId>)
    requires Valid(s.reg) && Enumerates(order, s.reg.kill.Keys)
    requires ShutdownProgress(s, cur, Done(order, |order|))
    ensures forall id :: !Stuck(s.reg, id)
    ensures cur.reg.clients == map[] && cur.reg.watchers == {}
    ensures cur.reg.kill.Keys == s.reg.kill.Keys
    ensures forall id :: id in s.reg.kill ==>
              cur.reg.kill[id] == if id in s.reg.watchers then 0 else s.reg.kill[id] + 1
    ensures cur.devices == ClearQrCodes(s.devices, s.reg.watchers)
  {
    var done := Done(order, |order|);
    forall k | k in s.reg.kill
      ensures k in done
    {
      var i :| 0 <= i < |order| && order[i] == k;
    }
    assert done == s.reg.kill.Keys;
    assert s.reg.watchers * done == s.reg.watchers;
    assert cur.reg.clients.Keys == {};
  }

  /** The keys visited before position `n`. */
  function Done(order: seq<DeviceId>, n: nat): (d: set<DeviceId>)
    requires n <= |order|
    ensures forall i :: 0 <= i < n ==> order[i] in d
    ensures forall k :: k in d ==> exists i :: 0 <= i < n && order[i] == k
  {
    set i | 0 <= i < n :: order[i]
  }

  /** The credential clearing of `Logout`. */
  function LoggedOutDevice(d: Device): (e: Device)
    ensures !e.isConnected && !e.jid.valid && e.jid.str == "" && !e.webhook.valid && e.webhook.str == ""
    ensures e.(isConnected := d.isConnected, jid := d.jid, webhook := d.webhook) == d
  {
    d.(isConnected := false, jid := ClearedString, webhook := ClearedString)
  }

  /** `MeowClient.Logout` for the device at row `k`: clear its credentials,
      save, then signal its kill channel. */
  function Logout(s: State, k: nat): (o: SignalOutcome)
    requires k < |s.devices|
    ensures var id := s.devices[k].id;
            o.Blocked? <==> id !in s.reg.kill || Stuck(s.reg, id)
    ensures var d := s.devices[k];
            var e := if d.id in s.reg.watchers then LoggedOutDevice(d).(qrCode := ClearedString) else LoggedOutDevice(d);
            o.Delivered? ==>
              |o.state.devices| == |s.devices|
              && forall i :: 0 <= i < |s.devices| ==>
                   o.state.devices[i] == if s.devices[i].id == d.id then e else s.devices[i]
    ensures var id := s.devices[k].id;
            o.Delivered? && id in s.reg.watchers ==>
              id !in o.state.reg.clients && id !in o.state.reg.watchers && o.state.reg.kill == s.reg.kill
    ensures var id := s.devices[k].id;
            o.Delivered? && id !in s.reg.watchers ==>
              o.state.reg == s.reg.(kill := s.reg.kill[id := s.reg.kill[id] + 1])
    ensures forall other :: other != s.devices[k].id && o.Delivered? ==> Entry(o.state.reg, other) == Entry(s.reg, other)
  {
    Signal(s.(devices := SaveDevice(s.devices, LoggedOutDevice(s.devices[k]))), s.devices[k].id)
  }

  /** After a logout of a registered session, its row is logged out, its
      QR code is cleared and the session is gone. */
  lemma LogoutOfRegisteredSession(s: State, k: nat)
    requires k < |s.devices| && Valid(s.reg) && IsRegistered(s.reg, s.devices[k].id)
    ensures Logout(s, k).Delivered?
    ensures var t := Logout(s, k).state;
            var d := s.devices[k];
            t.devices[k] == LoggedOutDevice(d).(qrCode := ClearedString)
            && !IsRegistered(t.reg, d.id) && d.id in t.reg.kill
  {
  }

  /** A logout touches no row's code: only the logged-out row changes, and
      it keeps its code. */
  lemma LogoutKeepsCodes(s: State, k: nat)
    requires k < |s.devices| && Valid(s.reg) && UniqueIds(s.devices) && IsRegistered(s.reg, s.devices[k].id)
    ensures Logout(s, k).Delivered?
    ensures var t := Logout(s, k).state;
            |t.devices| == |s.devices| && forall j :: 0 <= j < |s.devices| ==> t.devices[j].code == s.devices[j].code
  {
    LogoutOfRegisteredSession(s, k);
    var saved := SaveDevice(s.devices, LoggedOutDevice(s.devices[k]));
    assert forall j :: 0 <= j < |s.devices| ==> saved[j].code == s.devices[j].code;
  }

  /** A pending `StartClient` call: the device, its JID text and its event subscriptions. */
  datatype Launch = Launch(device: Device, jid: string, subscriptions: seq<string>)

  /** `ConnectOnStartup`'s selection: one launch per device marked connected,
      in table order, subscribed to its comma-separated event list. */
  function StartupLaunches(rows: seq<Device>): (ls: seq<Launch>)
    ensures |ls| <= |rows|
    ensures forall j :: 0 <= j < |ls| ==>
              ls[j].device.isConnected && ls[j].device in rows
              && ls[j].jid == ls[j].device.jid.str && ls[j].subscriptions == Split(ls[j].device.events, ',')
  {
    if |rows| == 0 then []
    else
      var rest := StartupLaunches(rows[1..]);
      if rows[0].isConnected then [Launch(rows[0], rows[0].jid.str, Split(rows[0].events, ','))] + rest
      else rest
  }

  /** No connected device is skipped. */
  lemma {:induction false} StartupLaunchesComplete(rows: seq<Device>, i: nat)
    requires i < |rows| && rows[i].isConnected
    ensures exists j :: 0 <= j < |StartupLaunches(rows)| && StartupLaunches(rows)[j].device == rows[i]
    decreases |rows|
  {
    var ls := StartupLaunches(rows);
    var rest := StartupLaunches(rows[1..]);
    if i == 0 {
      assert ls[0].device == rows[0];
    } else {
      StartupLaunchesComplete(rows[1..], i - 1);
      var j :| 0 <= j < |rest| && rest[j].device == rows[1..][i - 1];
      var shift := |ls| - |rest|;
      assert ls[j + shift] == rest[j];
    }
  }

  /** The subscriptions handed to each client join back to the stored event list. */
  lemma StartupSubscriptionsRejoin(rows: seq<Device>, j: nat)
    requires j < |StartupLaunches(rows)|
    ensures var l := StartupLaunches(rows)[j];
            Join(l.subscriptions, ',') == l.device.events
  {
    JoinSplit(StartupLaunches(rows)[j].device.events, ',');
  }

  /** Running the launches one after another, none of whose store lookups fails. */
  function StartAll(s: State, ls: seq<Launch>): (t: State)
    ensures t.devices == s.devices
    decreases |ls|
  {
    if |ls| == 0 then s
    else StartAll(StartClient(s, ls[0].device, ls[0].jid, ls[0].subscriptions, false).state, ls[1..])
  }

  /** Starting never unregisters another device. */
  lemma {:induction false} StartAllKeepsRegistered(s: State, ls: seq<Launch>, id: DeviceId)
    requires Valid(s.reg) && IsRegistered(s.reg, id)
    ensures IsRegistered(StartAll(s, ls).reg, id)
    decreases |ls|
  {
    if |ls| > 0 {
      var next := StartClient(s, ls[0].device, ls[0].jid, ls[0].subscriptions, false).state;
      StartClientKeepsValid(s, ls[0].device, ls[0].jid, ls[0].subscriptions, false);
      assert Entry(next.reg, id).2 && Entry(next.reg, id).1.Some? && Entry(next.reg, id).0.Some?;
      StartAllKeepsRegistered(next, ls[1..], id);
    }
  }

  /** When no lookup fails, every launched device ends up registered. */
  lemma {:induction false} StartAllRegistersEach(s: State, ls: seq<Launch>, j: nat)
    requires Valid(s.reg) && j < |ls|
    ensures IsRegistered(StartAll(s, ls).reg, ls[j].device.id)
    decreases |ls|
  {
    var next := StartClient(s, ls[0].device, ls[0].jid, ls[0].subscriptions, false).state;
    StartClientKeepsValid(s, ls[0].device, ls[0].jid, ls[0].subscriptions, false);
    if j == 0 {
      StartAllKeepsRegistered(next, ls[1..], ls[0].device.id);
    } else {
      StartAllRegistersEach(next, ls[1..], j - 1);
    }
  }

  /** On start-up with working lookups, every device marked connected gets a session. */
  lemma ConnectOnStartupRegistersConnected(s: State, i: nat)
    requires Valid(s.reg) && i < |s.devices| && s.devices[i].isConnected
    ensures IsRegistered(StartAll(s, StartupLaunches(s.devices)).reg, s.devices[i].id)
  {
    var ls := StartupLaunches(s.devices);
    StartupLaunchesComplete(s.devices, i);
    var j :| 0 <= j < |ls| && ls[j].device == s.devices[i];
    StartAllRegistersEach(s, ls, j);
  }
}

=== FILE: rpcsession.dfy ===
/** The session service's guards (cmd/api/rpc/session.go): `Connect`,
    `Disconnect` and `Logout` of the device with a given code, decided on the
    device table and the session registry. The library client's own
    `Logout` call is an oracle that fails or not. */
module RpcSessions {
  import opened Common
  import opened Models
  import opened Sessions

  datatype SessionState = CONNECTED | DISCONNECTED | LOGGED_OUT

  datatype RpcError =
    | DeviceNotFound
    | AlreadyConnected
    | SaveFailed
    | AlreadyDisconnected
    | NotLoggedIn
    | LogoutFailed
    | NotConnected

  /** An answer with the state after the call and, for `Connect`, the client
      start it launches in the background; a refusal, which changes nothing;
      a kill signal that can never be received; or a nil dereference. */
  datatype RpcResult =
    | Answered(answer: SessionState, state: State, launch: Option<Launch>)
    | Refused(err: RpcError)
    | RpcBlocked
    | RpcPanicked

  /** The row the code lookup fills in; a row with the empty code reads as
      "not found" like a missing one. */
  function LookupCode(rows: seq<Device>, code: string): (k: Option<nat>)
    ensures k.Some? ==> k.value < |rows| && rows[k.value].code == code && code != ""
    ensures k.None? ==> code == "" || forall j :: 0 <= j < |rows| ==> rows[j].code != code
  {
    match FindDeviceByCode(rows, code)
    case None => None
    case Some(k) => if rows[k].code == "" then None else Some(k)
  }

  /** `Connect`. `saveFails` says whether saving the subscription list errs. */
  function Connect(s: State, code: string, saveFails: bool): (r: RpcResult)
    ensures LookupCode(s.devices, code).None? ==> r == Refused(DeviceNotFound)
    ensures r.RpcBlocked? == false && r.RpcPanicked? == false
    ensures LookupCode(s.devices, code).Some? ==>
              var d := s.devices[LookupCode(s.devices, code).value];
              (d.id in s.reg.clients ==> r == Refused(AlreadyConnected))
              && (d.id !in s.reg.clients && saveFails ==> r == Refused(SaveFailed))
              && (d.id !in s.reg.clients && !saveFails ==>
                    var saved := d.(events := "All");
                    r == Answered(CONNECTED, s.(devices := SaveDevice(s.devices, saved)), Some(Launch(saved, d.jid.str, ["All"]))))
  {
    match LookupCode(s.devices, code)
    case None => Refused(DeviceNotFound)
    case Some(k) =>
      var d := s.devices[k];
      if d.id in s.reg.clients then Refused(AlreadyConnected)
      else if saveFails then Refused(SaveFailed)
      else
        var saved := d.(events := "All");
        Answered(CONNECTED, s.(devices := SaveDevice(s.devices, saved)), Some(Launch(saved, d.jid.str, ["All"])))
  }

  /** Running the launched start registers the session, after which a second
      `Connect` of the same code is refused. */
  lemma ConnectThenConnectRefused(s: State, code: string, lookupFails: bool, saveFails: bool)
    requires UniqueIds(s.devices) && Connect(s, code, false).Answered?
    ensures var r := Connect(s, code, false);
            var l := r.launch.value;
            var started := StartClient(r.state, l.device, l.jid, l.subscriptions, lookupFails);
            !started.failed ==> Connect(started.state, code, saveFails) == Refused(AlreadyConnected)
  {
    var k := LookupCode(s.devices, code).value;
    var r := Connect(s, code, false);
    var l := r.launch.value;
    var started := StartClient(r.state, l.device, l.jid, l.subscriptions, lookupFails);
    assert r.state.devices[k].code == code && r.state.devices[k].id == s.devices[k].id;
    assert forall j :: 0 <= j < k ==> r.state.devices[j].code == s.devices[j].code;
    FindDeviceByCodeAt(r.state.devices, code, k);
  }

  /** `Disconnect`: one kill signal to a registered session. */
  function Disconnect(s: State, code: string): (r: RpcResult)
    ensures LookupCode(s.devices, code).None? ==> r == Refused(DeviceNotFound)
    ensures LookupCode(s.devices, code).Some? ==>
              var d := s.devices[LookupCode(s.devices, code).value];
              (d.id !in s.reg.clients ==> r == Refused(AlreadyDisconnected))
              && (d.id in s.reg.clients ==>
                    (r.RpcBlocked? <==> Signal(s, d.id).Blocked?)
                    && (r.Answered? ==> r == Answered(DISCONNECTED, Signal(s, d.id).state, None)))
    ensures !r.RpcPanicked?
  {
    match LookupCode(s.devices, code)
    case None => Refused(DeviceNotFound)
    case Some(k) =>
      var d := s.devices[k];
      if d.id !in s.reg.clients then Refused(AlreadyDisconnected)
      else match Signal(s, d.id)
        case Blocked => RpcBlocked
        case Delivered(t) => Answered(DISCONNECTED, t, None)
  }

  /** A registered session is torn down by `Disconnect`, and a second
      `Disconnect` is refused. */
  lemma DisconnectTearsDown(s: State, code: string)
    requires Valid(s.reg) && LookupCode(s.devices, code).Some?
    requires IsRegistered(s.reg, s.devices[LookupCode(s.devices, code).value].id)
    ensures var r := Disconnect(s, code);
            var id := s.devices[LookupCode(s.devices, code).value].id;
            r.Answered? && id !in r.state.reg.clients && Valid(r.state.reg)
            && Disconnect(r.state, code) == Refused(AlreadyDisconnected)
  {
    var k := LookupCode(s.devices, code).value;
    var id := s.devices[k].id;
    SignalKeepsValid(s, id);
    var t := Signal(s, id).state;
    assert t.devices[k].code == code;
    assert forall j :: 0 <= j < k ==> t.devices[j].code == s.devices[j].code;
    FindDeviceByCodeAt(t.devices, code, k);
  }

  /** `Logout`. `logoutFails` says whether the library client's logout errs. */
  function Logout(s: State, code: string, logoutFails: bool): (r: RpcResult)
    ensures LookupCode(s.devices, code).None? ==> r == Refused(DeviceNotFound)
    ensures LookupCode(s.devices, code).Some? ==>
              var k := LookupCode(s.devices, code).value;
              var d := s.devices[k];
              (d.jid.str == "" ==> r == Refused(NotLoggedIn))
              && (d.jid.str != "" && d.id !in s.reg.clients ==> r == RpcPanicked)
              && (d.jid.str != "" && d.id in s.reg.clients ==>
                    var c := s.reg.clients[d.id];
                    (c.connected && c.loggedIn && logoutFails ==> r == Refused(LogoutFailed))
                    && (c.connected && c.loggedIn && !logoutFails ==>
                          (r.RpcBlocked? <==> Sessions.Logout(s, k).Blocked?)
                          && (r.Answered? ==> r == Answered(LOGGED_OUT, Sessions.Logout(s, k).state, None)))
                    && (c.connected && !c.loggedIn ==>
                          (r.RpcBlocked? <==> Signal(s, d.id).Blocked?)
                          && (r.Answered? ==> r == Answered(LOGGED_OUT, Signal(s, d.id).state, None)))
                    && (!c.connected ==> r == Refused(NotConnected)))
  {
    match LookupCode(s.devices, code)
    case None => Refused(DeviceNotFound)
    case Some(k) =>
      var d := s.devices[k];
      if d.jid.str == "" then Refused(NotLoggedIn)
      else if d.id !in s.reg.clients then RpcPanicked
      else
        var c := s.reg.clients[d.id];
        if c.connected && c.loggedIn then
          if logoutFails then Refused(LogoutFailed)
          else match Sessions.Logout(s, k)
            case Blocked => RpcBlocked
            case Delivered(t) => Answered(LOGGED_OUT, t, None)
        else if c.connected then
          match Signal(s, d.id)
          case Blocked => RpcBlocked
          case Delivered(t) => Answered(LOGGED_OUT, t, None)
        else Refused(NotConnected)
  }

  /** A logged-in session's logout clears the row's credentials and ends the
      session, after which the same call is refused as not logged in. */
  lemma LogoutClearsCredentials(s: State, code: string)
    requires Valid(s.reg) && UniqueIds(s.devices) && LookupCode(s.devices, code).Some?
    requires var d := s.devices[LookupCode(s.devices, code).value];
             d.jid.str != "" && IsRegistered(s.reg, d.id)
             && s.reg.clients[d.id].connected && s.reg.clients[d.id].loggedIn
    ensures var r := Logout(s, code, false);
            var k := LookupCode(s.devices, code).value;
            r.Answered? && r.state.devices[k] == LoggedOutDevice(s.devices[k]).(qrCode := ClearedString)
            && Logout(r.state, code, false) == Refused(NotLoggedIn)
  {
    var k := LookupCode(s.devices, code).value;
    LogoutOfRegisteredSession(s, k);
    LogoutKeepsCodes(s, k);
    var t := Sessions.Logout(s, k).state;
    FindDeviceByCodeAt(t.devices, code, k);
  }
}

=== FILE: strings.dfy ===
/** The handful of Go `strings` operations the core relies on, on `seq<char>`:
    the first piece of `strings.Split`, `Split`/`Join`, and ASCII upper-casing. */
module Strings {

  predicate IsPrefix(p: string, s: string) {
    |p| <= |s| && s[..|p|] == p
  }

  predicate IsSuffix(p: string, s: string) {
    |p| <= |s| && s[|s| - |p|..] == p
  }

  predicate AllDigits(s: string) {
    forall i :: 0 <= i < |s| ==> '0' <= s[i] <= '9'
  }

  /** The characters at which the phone/JID helpers cut a string. */
  predicate IsJidSeparator(ch: char) {
    ch == '@' || ch == '.' || ch == ':'
  }

  predicate NoJidSeparator(s: string) {
    forall i :: 0 <= i < |s| ==> !IsJidSeparator(s[i])
  }

  /** `strings.Split(s, string(c))[0]`: the longest prefix of `s` free of `c`. */
  function BeforeFirst(s: string, c: char): (r: string)
    ensures IsPrefix(r, s)
    ensures c !in r
    ensures |r| == |s| || s[|r|] == c
  {
    if |s| == 0 || s[0] == c then "" else [s[0]] + BeforeFirst(s[1..], c)
  }

  /** The three successive splits on '@', '.' and ':' that ParseJID, StripJID
      and the contact sanitizer all perform. */
  function CutAtSeparators(s: string): (r: string)
    ensures IsPrefix(r, s)
    ensures NoJidSeparator(r)
    ensures |r| == |s| || IsJidSeparator(s[|r|])
  {
    var a := BeforeFirst(s, '@');
    var b := BeforeFirst(a, '.');
    var r := BeforeFirst(b, ':');
    assert forall i :: 0 <= i < |r| ==> r[i] == b[i] == a[i];
    assert forall i :: 0 <= i < |r| ==> r[i] != ':' && b[i] != '.' && a[i] != '@';
    assert |r| == |b| || b[|r|] == ':';
    assert |b| == |a| || a[|b|] == '.';
    r
  }

  /** The cut is the ONLY prefix with no separator that ends at a separator or at
      the end of the string: it stops exactly at the earliest separator. */
  lemma CutAtSeparatorsIsEarliest(s: string, p: string)
    requires IsPrefix(p, s) && NoJidSeparator(p)
    requires |p| == |s| || IsJidSeparator(s[|p|])
    ensures p == CutAtSeparators(s)
  {
  }

  /** `strings.Split(s, string(c))`. */
  function Split(s: string, c: char): (parts: seq<string>)
    ensures |parts| >= 1
    ensures parts[0] == BeforeFirst(s, c)
    decreases |s|
  {
    var head := BeforeFirst(s, c);
    if |head| == |s| then [s] else [head] + Split(s[|head| + 1..], c)
  }

  /** `strings.Join(parts, string(c))`. */
  function Join(parts: seq<string>, c: char): string {
    if |parts| == 0 then ""
    else if |parts| == 1 then parts[0]
    else parts[0] + [c] + Join(parts[1..], c)
  }

  /** A string with `c` in it is its first piece, `c`, and the remainder. */
  lemma BeforeFirstSplits(s: string, c: char)
    requires |BeforeFirst(s, c)| < |s|
    ensures var head := BeforeFirst(s, c);
            s == head + [c] + s[|head| + 1..]
  {
    var head := BeforeFirst(s, c);
    assert s == s[..|head|] + [s[|head|]] + s[|head| + 1..];
  }

  lemma JoinCons(head: string, tail: seq<string>, c: char)
    requires |tail| >= 1
    ensures Join([head] + tail, c) == head + [c] + Join(tail, c)
  {
    assert ([head] + tail)[1..] == tail;
  }

  /** Joining the pieces of a split restores the original string. */
  lemma {:induction false} JoinSplit(s: string, c: char)
    ensures Join(Split(s, c), c) == s
    decreases |s|
  {
    var head := BeforeFirst(s, c);
    if |head| < |s| {
      var rest := s[|head| + 1..];
      JoinSplit(rest, c);
      assert Split(s, c) == [head] + Split(rest, c);
      JoinCons(head, Split(rest, c), c);
      BeforeFirstSplits(s, c);
    }
  }

  /** No piece of a split holds the separator. */
  lemma {:induction false} SplitPiecesFree(s: string, c: char, i: nat)
    requires i < |Split(s, c)|
    ensures c !in Split(s, c)[i]
    decreases |s|
  {
    var head := BeforeFirst(s, c);
    if i > 0 {
      var rest := s[|head| + 1..];
      assert Split(s, c) == [head] + Split(rest, c);
      SplitPiecesFree(rest, c, i - 1);
    }
  }

  /** Splitting a string that holds no separator gives the string back alone. */
  lemma SplitWithoutSeparator(s: string, c: char)
    requires c !in s
    ensures Split(s, c) == [s]
  {
  }

  function UpperChar(ch: char): char {
    if 'a' <= ch <= 'z' then (ch as int - 32) as char else ch
  }

  /** `strings.ToUpper`, restricted to ASCII letters. */
  function ToUpper(s: string): (r: string)
    ensures |r| == |s|
    ensures forall i :: 0 <= i < |s| ==> r[i] == UpperChar(s[i])
  {
    if |s| == 0 then "" else [UpperChar(s[0])] + ToUpper(s[1..])
  }

  /** Upper-casing twice is upper-casing once. */
  lemma ToUpperIdempotent(s: string)
    ensures ToUpper(ToUpper(s)) == ToUpper(s)
  {
    var u := ToUpper(s);
    assert forall i :: 0 <= i < |u| ==> UpperChar(u[i]) == u[i];
  }
}

=== FILE: walogger.dfy ===
/** The level filter of the messaging client's logger (pkg/wmeow/logger.go). */
module WaLogger {
  import opened Strings

  datatype Severity = Debug | Info | Warn | Error

  function SeverityName(s: Severity): string {
    match s
    case Debug => "DEBUG"
    case Info => "INFO"
    case Warn => "WARN"
    case Error => "ERROR"
  }

  /** Position of a severity in the DEBUG < INFO < WARN < ERROR order. */
  function Rank(s: Severity): int {
    match s
    case Debug => 0
    case Info => 1
    case Warn => 2
    case Error => 3
  }

  /** `levelToInt`. */
  const LevelToInt: map<string, int> := map["" := -1, "DEBUG" := 0, "INFO" := 1, "WARN" := 2, "ERROR" := 3]

  /** Indexing `levelToInt`: a missing name reads as Go's zero value 0. */
  function LevelValue(name: string): (v: int)
    ensures -1 <= v <= 3
    ensures name !in LevelToInt ==> v == 0
    ensures name == "" ==> v == -1
    ensures forall s: Severity :: name == SeverityName(s) ==> v == Rank(s)
  {
    if name in LevelToInt then LevelToInt[name] else 0
  }

  datatype ZapLogger = ZapLogger(moduleName: string, minimum: int)

  function InitZapLogger(moduleName: string, minLevel: string): (l: ZapLogger)
    ensures l.moduleName == moduleName
    ensures -1 <= l.minimum <= 3
    ensures ToUpper(minLevel) !in LevelToInt ==> l.minimum == 0
    ensures minLevel == "" ==> l.minimum == -1
    ensures forall s: Severity :: ToUpper(minLevel) == SeverityName(s) ==> l.minimum == Rank(s)
  {
    ZapLogger(moduleName, LevelValue(ToUpper(minLevel)))
  }

  /** The minimum level name is matched case-insensitively. */
  lemma InitZapLoggerCaseInsensitive(moduleName: string, minLevel: string)
    ensures InitZapLogger(moduleName, minLevel) == InitZapLogger(moduleName, ToUpper(minLevel))
  {
    ToUpperIdempotent(minLevel);
  }

  /** Whether `Errorf`/`Warnf`/`Infof`/`Debugf` forwards its message. */
  function Emits(l: ZapLogger, s: Severity): (b: bool)
    ensures b <==> Rank(s) >= l.minimum
  {
    !(LevelValue(SeverityName(s)) < l.minimum)
  }

  /** Emission is monotone in severity. */
  lemma EmitsMonotone(l: ZapLogger, a: Severity, b: Severity)
    requires Rank(a) <= Rank(b) && Emits(l, a)
    ensures Emits(l, b)
  {
  }

  /** Errors pass every logger built by InitZapLogger, whatever its level name. */
  lemma ErrorAlwaysEmitted(moduleName: string, minLevel: string)
    ensures Emits(InitZapLogger(moduleName, minLevel), Error)
  {
  }

  /** An empty level name forwards every severity, DEBUG included. */
  lemma EmptyLevelEmitsEverything(moduleName: string, s: Severity)
    ensures Emits(InitZapLogger(moduleName, ""), s)
  {
  }

  /** `Sub`: a child logger with the same threshold and a nested module path. */
  function Sub(l: ZapLogger, moduleName: string): (c: ZapLogger)
    ensures c.minimum == l.minimum
    ensures forall s :: Emits(c, s) == Emits(l, s)
    ensures IsPrefix(l.moduleName + "/", c.moduleName) && c.moduleName[|l.moduleName| + 1..] == moduleName
  {
    ZapLogger(l.moduleName + "/" + moduleName, l.minimum)
  }
}
